=== FILE: README.md ===
# WhatsApp lead widget — a Dafny model of its logic

The widget puts a floating button on a page. The button opens a small form: a name, an optional e-mail and phone, and a consent box. The form then sends the visitor to a WhatsApp conversation (`https://wa.me/<number>?text=<message>`). It also posts the lead to a configured endpoint. Optionally it intercepts clicks on WhatsApp links already on the page.

This project models the pure logic behind that behaviour, as immutable values and total functions, and proves what it promises:

- `toDigits`, which reduces any value to its decimal digits (`strings.dfy`, `values.dfy`).
- `mergeDeep`, over a JSON-like value with JavaScript's own-key view of objects, arrays and strings (`merge.dfy`).
- `normalizeConfig`, with the widget's defaults, and `formatLabel` (`config.dfy`).
- `readStorage` and `writeStorage` over a map-shaped `localStorage`, with the clock passed in (`storage.dfy`).
- The submit-time checks: the trimmed name, the e-mail shape `^\S+@\S+\.\S+$`, the eight-digit phone and the `required` fields (`validation.dfy`).
- `_isWhatsAppLink` and `_extractNumber`, with each regular expression written out as a scan (`links.dfy`).
- The lead: the tracking data, the `mergeDeep` precedence of the payload, the optional IP and the `_postLead` filter (`lead.dfy`).
- The session number (`setNumber`, `open`), the message and address of `_buildWhatsAppURL`, the link-click handler, and `_handleSubmit` up to the network (`widget.dfy`).

Some things are parameters rather than modelled code:

- `encodeURIComponent` is a parameter `string -> string`.
- `decodeURIComponent` is a parameter `string -> Option<string>`. `None` stands for the `URIError` it throws.
- The current instant, the formatted timestamp, the user agent, the page address, the referrer and the query parameters are inputs.
- The browser's syntax check of a `type="email"` input is a parameter `string -> bool`. `reportValidity` runs it on a non-empty e-mail.

All paths below are relative to the repository root.

## Model

| member | source | states |
|---|---|---|
| Strings.ToDigits | src/whatsapp-lead-widget.js:34 | Joining the `\d+` matches gives exactly the input's digit characters, in their original order (the independent definition `KeepDigits`). |
| Strings.ToDigitsIsKeepDigits | src/whatsapp-lead-widget.js:34 | The join of the maximal digit runs equals the digit characters kept one by one. |
| Strings.ToDigitsIdempotent | src/whatsapp-lead-widget.js:34 | Applying `toDigits` twice gives the same as applying it once. |
| Strings.ToDigitsOfDigits | src/whatsapp-lead-widget.js:34 | A string of digits is returned unchanged. |
| Strings.KeepDigitsAppend | src/whatsapp-lead-widget.js:34 | Keeping digits distributes over concatenation. |
| Strings.KeepDigitsOfDigits | src/whatsapp-lead-widget.js:34 | Keeping the digits of a digit string is the identity. |
| Values.ToDigitsValue | src/whatsapp-lead-widget.js:34 | `toDigits` of any value is digits only; on a string it keeps that string's digits; on null or undefined it is empty. |
| Strings.Trim | src/whatsapp-lead-widget.js:491-493 | The result is the input without its leading and trailing JavaScript whitespace, and has no whitespace at either end; it is empty exactly when the input is all whitespace. |
| Strings.TrailingSpaces | src/whatsapp-lead-widget.js:491-493 | The count of trailing whitespace characters stops at the lower bound. Every counted character is whitespace, and the character just before them is not. |
| Strings.TrimBounds | src/whatsapp-lead-widget.js:491-493 | The kept middle lies between the leading and the trailing run of whitespace. It is empty exactly when the text is all whitespace. |
| Strings.TrimIdempotent | src/whatsapp-lead-widget.js:491-493 | Trimming twice is trimming once. |
| Values.OwnEntriesOrEmpty | src/whatsapp-lead-widget.js:69 | `Object.keys(source \|\| {})` sees the same entries as the source itself. |
| DeepMerge.MergeDeep | src/whatsapp-lead-widget.js:67-78 | The result is a fresh object whose keys are the own keys of the target together with the own keys of the source. |
| DeepMerge.MergeDeepSpec | src/whatsapp-lead-widget.js:67-78 | Per key: a target key missing from the source keeps its value; a source value that is not a plain object replaces it; a plain-object source value is merged recursively into the copied value, or into `{}` when that value is falsy. This holds whatever the kinds of both arguments. |
| DeepMerge.MergeSelf | src/whatsapp-lead-widget.js:67-78 | Merging a plain object into itself returns it unchanged. |
| DeepMerge.MergeEmpty | src/whatsapp-lead-widget.js:67-78 | Merging `{}` copies the target's own entries. |
| DeepMerge.MergeIdempotent | src/whatsapp-lead-widget.js:67-78 | Merging the same object source a second time changes nothing. |
| DeepMerge.MergeFlat | src/whatsapp-lead-widget.js:67-78 | With no plain object among the source values, the merge of two objects is their union, with the source winning. |
| Config.WidgetDefaultsCoherent | src/whatsapp-lead-widget.js:154-174 | The whole-configuration defaults hold `DEFAULT_TEXTS`, `DEFAULT_THEME` and `DEFAULT_CONTACT_FIELDS` under their keys. |
| Config.NormalizeNumber | src/whatsapp-lead-widget.js:311 | The number becomes a digits-only string, and no other key changes. |
| Config.MergeSectionDefaults | src/whatsapp-lead-widget.js:312-317 | The section becomes an object holding every key of its defaults, and no other key changes. |
| Config.ForceOptional | src/whatsapp-lead-widget.js:318-322 | The loop body throws exactly when the field is neither an object nor an array. Otherwise an enabled field is kept, and a disabled one stays disabled and is no longer required. A disabled object has exactly `required: false` added. Every other field is unchanged. |
| Config.SettleContactFieldsSpec | src/whatsapp-lead-widget.js:318-322 | The two-field loop fails exactly when `email` or `phone` cannot take the property. Otherwise it settles both and keeps the other fields. |
| Config.Prepare | src/whatsapp-lead-widget.js:310-317 | Before the loop: the keys are the merged keys plus the four rewritten ones, and the number is the digits of the merged number. Each section is its defaults merged under the merged value. |
| Config.FinishSpec | src/whatsapp-lead-widget.js:318-326 | The loop fails exactly when a contact field is neither an object nor an array. On success it settles both fields and leaves every other key as it was. |
| Config.Normalize | src/whatsapp-lead-widget.js:309-327 | The normalised configuration is an object with the default keys, the caller's keys and the rewritten keys. |
| Config.NormalizeShape | src/whatsapp-lead-widget.js:309-327 | The normalised number is digits only. `texts`, `theme` and `contactFields` are objects holding every default key. |
| Config.SectionMergedOnce | src/whatsapp-lead-widget.js:310-317 | Merging a section's defaults a second time, over the whole-configuration merge, equals a single merge of those defaults under the caller's value. |
| Config.PrepareSections | src/whatsapp-lead-widget.js:310-317 | Each section equals its defaults merged once under the caller's value. A string number becomes its digits. |
| Config.NormalizeFails | src/whatsapp-lead-widget.js:318-322 | `normalizeConfig` throws exactly when a merged contact field is neither an object nor an array. |
| Config.NormalizeSettlesFields | src/whatsapp-lead-widget.js:318-322 | On success, a field enabled after merging keeps its merged value, including `required`. A disabled field is not required. |
| Config.NormalizeKeepsSections | src/whatsapp-lead-widget.js:310-313 | On success, texts and theme are their defaults under the caller's values, and the number is the digits of the caller's string. |
| Config.NormalizeFailsOnCallerValue | src/whatsapp-lead-widget.js:309-322 | With object defaults, a throw happens exactly when the caller sets `email` or `phone` to something that is neither an object nor an array. |
| Config.NormalizeConfigFails | src/whatsapp-lead-widget.js:309-322 | The same for the widget's own defaults. |
| Config.StripMarker | src/whatsapp-lead-widget.js:182 | The result is a prefix of the text. A text not ending in `*` is kept. Otherwise the `*` and all whitespace right before it are removed, and no whitespace is left at the end. |
| Config.FormatLabel | src/whatsapp-lead-widget.js:181-184 | With `t = String(text \|\| "")`, a truthy `required` makes the label end in ` *`. What precedes that marker (or the whole label when not required) is a prefix of `t`. It equals `t` when `t` does not end in `*`. Otherwise it lacks exactly one `*` and the whitespace run before it. When that stripped text does not itself end in `*`, the label ends in `*` exactly when `required` is truthy. |
| Config.StripMarkerOfMarked | src/whatsapp-lead-widget.js:182-183 | Stripping undoes the marker that formatting appends. |
| Config.FormatLabelStable | src/whatsapp-lead-widget.js:181-184 | Formatting an already formatted required label never doubles the marker. |
| Config.FormatNameLabelExample | src/whatsapp-lead-widget.js:181-184 | The default `Nome *` label of the required name keeps a single marker. |
| Config.FormatOptionalLabelExample | src/whatsapp-lead-widget.js:181-184 | An optional field's `Email *` default loses its marker. |
| Storage.ToNumber | src/whatsapp-lead-widget.js:341 | The numeric view of a stored value: a number is itself; undefined and objects are NaN. |
| Storage.ExpiryFor | src/whatsapp-lead-widget.js:359-361 | The expiry is null for a falsy lifetime, and `now + minutes·60000` for a numeric one. |
| Storage.WriteStorage | src/whatsapp-lead-widget.js:357-370 | Without a key or storage nothing changes. Otherwise exactly the configured entry is set to `{data, expires}`. |
| Storage.ReadStorage | src/whatsapp-lead-widget.js:334-350 | Only truthy data is returned. The storage either stays as it was or loses exactly the configured entry. |
| Storage.ReadWithoutKey | src/whatsapp-lead-widget.js:335 | Without a key or storage a read returns nothing and changes nothing. |
| Storage.ReadAfterWrite | src/whatsapp-lead-widget.js:334-370 | Reading right after a write returns the written data, unless the recorded instant has passed; then it returns nothing and drops exactly that entry. |
| Storage.ExpiryBoundary | src/whatsapp-lead-widget.js:341-344 | Data written with a lifetime of `m` minutes is read back up to and including `written + m·60000`, and is removed after it. |
| Storage.NoExpiryWithoutLifetime | src/whatsapp-lead-widget.js:359-361 | Data written with a falsy lifetime is read back at any later instant. |
| Storage.ReadKeepsOtherEntries | src/whatsapp-lead-widget.js:334-350 | A read never touches another entry. |
| Storage.WriteKeepsOtherEntries | src/whatsapp-lead-widget.js:357-370 | A write never touches another entry. |
| Validation.EmailShapeMatchesPattern | src/whatsapp-lead-widget.js:515 | The scan accepts exactly the strings `^\S+@\S+\.\S+$` matches: no whitespace, an `@` after the first character, and a `.` at least two characters after it and before the last. |
| Validation.EmailFlaggedMeaning | src/whatsapp-lead-widget.js:515-517 | An e-mail is flagged exactly when it is non-empty and the pattern rejects it. |
| Validation.KeepDigitsLength | src/whatsapp-lead-widget.js:520-521 | The length of `toDigits(phone)` is the number of digit characters of the phone. |
| Validation.PhoneFlaggedMeaning | src/whatsapp-lead-widget.js:519-524 | A phone is flagged exactly when it is non-empty and has fewer than eight digit characters. |
| Validation.EmptyNeverFlagged | src/whatsapp-lead-widget.js:515-524 | Empty values are never flagged. |
| Validation.FormProblems | src/whatsapp-lead-widget.js:510-528 | The form has no problem exactly when the name is filled and every rendered field passes its checks. Each kind of problem appears exactly when its own check fails on a rendered field. |
| Validation.Problems | src/whatsapp-lead-widget.js:515-528 | There is no problem exactly when the name is filled and every rendered contact field is filled when required and well formed when filled, unless the configured `invalidEmail` or `invalidPhone` text is empty (an empty custom message sets no error). A filled e-mail must also pass the browser's syntax check. A missing name is reported exactly when the name is empty. |
| Validation.FieldProblems | src/whatsapp-lead-widget.js:515-528 | One field has no problem exactly when it is not rendered, or it is filled when required and not flagged. Only its own two problems can appear. Its missing problem appears exactly when it is rendered, required and empty. Its shape problem appears exactly when it is rendered and flagged. |
| Validation.ShapeProblemsNeedValue | src/whatsapp-lead-widget.js:515-524 | A shape problem is reported exactly for a rendered field whose value is flagged and whose configured message is not empty, and so only for a non-empty value. The browser's e-mail check is reported exactly for a rendered, non-empty e-mail it rejects. |
| Validation.DisabledFieldNeverBlocks | src/whatsapp-lead-widget.js:198-222 | Disabled contact fields are not rendered, so only the name can block the form. |
| Validation.SettledRule | src/whatsapp-lead-widget.js:318-322 | The contact-field loop keeps a field's enabled state, and a disabled field's rule is never required. |
| Links.FindMarker | src/whatsapp-lead-widget.js:735-736 | The search returns the leftmost position where the pattern starts, and none exists when it returns nothing. |
| Links.IsWhatsAppLinkMeaning | src/whatsapp-lead-widget.js:734-738 | A link is a WhatsApp link exactly when `wa.me/<digit>` or `api.whatsapp.com/send` occurs somewhere, or the link starts with `whatsapp://send`; all case-insensitive. |
| Links.FindLazyPhone | src/whatsapp-lead-widget.js:746 | The lazy `.*?phone=([^&#]+)` stops at the first `phone=` with a non-empty value, crossing no line terminator. It finds nothing only when no such `phone=` lies before the first line terminator. |
| Links.LazyPhoneFound | src/whatsapp-lead-widget.js:746 | Wherever the first `phone=` with a value before any line terminator is, the lazy scan stops there. |
| Links.DecodedDigits | src/whatsapp-lead-widget.js:744-745 | The number fails exactly when decoding throws; otherwise it is the digits of the decoded value. |
| Links.ExtractNumber | src/whatsapp-lead-widget.js:741-749 | The extracted number is always digits only (possibly empty), unless decoding throws. |
| Links.WaMeDigitsWin | src/whatsapp-lead-widget.js:742-743 | When `wa.me/<digits>` occurs, the number is the whole digit run after its first occurrence, whatever `phone` parameter follows and whatever decoding would do. |
| Links.SchemePhoneNumber | src/whatsapp-lead-widget.js:746-747 | Without a `wa.me/<digit>` or a `[?&#]phone=` match, a `whatsapp://send?` link takes the digits of the decoded value after the first `phone=` the lazy scan reaches. That value is non-empty. |
| Links.NoPatternNoNumber | src/whatsapp-lead-widget.js:742-748 | A link that none of the three number patterns matches has the empty number. |
| Links.ExtractFailsOnlyOnDecode | src/whatsapp-lead-widget.js:741-749 | No number comes out exactly when there is no `wa.me/<digit>` and decoding throws on the value the taken branch captured. That value is the first `[?&#]phone=` value or, without one, the value the `whatsapp://send?` pattern reaches. |
| Links.FailedBranch | src/whatsapp-lead-widget.js:741-749 | A failed extraction had no `wa.me/<digit>`, and decoding threw on the value of the branch it took. |
| Links.PhoneParamNumber | src/whatsapp-lead-widget.js:744-745 | Without `wa.me/<digit>`, the first `?phone=`, `&phone=` or `#phone=` with a value gives the digits of that decoded value. |
| Links.SchemeLinkNumber | src/whatsapp-lead-widget.js:741-745 | `whatsapp://send?phone=<digits>` yields those digits. |
| Links.WaMeUrlNumber | src/whatsapp-lead-widget.js:734-743 | `https://wa.me/<digits>` followed by a non-digit is a WhatsApp link, and its number is exactly those digits. |
| Lead.TrackingData | src/whatsapp-lead-widget.js:90-114 | The tracking data holds exactly the listed campaign parameters with non-empty values, plus `page_url` and `referrer` when non-empty. Every value is a non-empty string. |
| Lead.TrackingDataKeys | src/whatsapp-lead-widget.js:80-114 | Tracking data never uses the names of the typed values. |
| Lead.BasePayloadFields | src/whatsapp-lead-widget.js:555-566 | The payload literal holds the typed values under `nome`, `email` and `telefone`. `consent` is `Sim` exactly when the box is ticked. Every value is a string. |
| Lead.AssemblePayload | src/whatsapp-lead-widget.js:555-570 | The payload is an object whose keys are those of the literal, the tracking data and `extraFields`. |
| Lead.PayloadPrecedence | src/whatsapp-lead-widget.js:555-570 | `extraFields` wins over the tracking data, which wins over the typed values. A plain-object extra value is merged into what was there. |
| Lead.WithUserIp | src/whatsapp-lead-widget.js:575-576 | A truthy IP is added as `userIP`; otherwise the payload is unchanged. |
| Lead.FormEntries | src/whatsapp-lead-widget.js:659-665 | Exactly the non-null, non-undefined payload values are appended. A string value is appended as itself. |
| Lead.PostLead | src/whatsapp-lead-widget.js:657-666 | The post is skipped exactly when `scriptURL` is falsy. Otherwise it goes to that address with the filtered form data. |
| Lead.PostedBaseValue | src/whatsapp-lead-widget.js:555-666 | A literal string value that neither tracking nor `extraFields` overrides is posted as it was typed. |
| Lead.TypedNamesUntracked | src/whatsapp-lead-widget.js:80-114 | `nome`, `email`, `telefone` and `consent` are neither campaign parameters nor `page_url` or `referrer`. |
| Lead.PostedTypedEntries | src/whatsapp-lead-widget.js:555-666 | The four typed entries of a payload literal are posted as they were, when neither tracking nor `extraFields` overrides them. |
| Lead.PostedLeadCarriesTypedValues | src/whatsapp-lead-widget.js:555-666 | With an endpoint, the typed name, e-mail and phone and the consent text always reach the backend, unless `extraFields` overrides them. |
| Widget.Start | src/whatsapp-lead-widget.js:390-392 | A new widget targets the configured number. |
| Widget.SetNumber | src/whatsapp-lead-widget.js:780-782 | The runtime number becomes the digits of the given value. The configured number is kept. |
| Widget.SetNumberIdempotent | src/whatsapp-lead-widget.js:780-782 | Setting the number the widget already holds changes nothing. |
| Widget.Open | src/whatsapp-lead-widget.js:752-757 | With a falsy argument the runtime number is reset to the configured one. Given a digits-only configuration, the runtime number stays digits only. |
| Widget.TargetNumber | src/whatsapp-lead-widget.js:623 | A non-empty runtime number is the target. An empty one gives the configured number. The target is empty only when both are. |
| Widget.OpenTarget | src/whatsapp-lead-widget.js:752-757 | After `open`, the target is the configured number when no number or a digitless one was given; otherwise it is the digits of the given number. |
| Widget.JoinLed | src/whatsapp-lead-widget.js:622 | `join` of a first part and more parts is the first part followed by each further part after a separator. |
| Widget.ComposeMessageShape | src/whatsapp-lead-widget.js:617-622 | The message is `Olá! Meu nome é <name>.`, then, in order and each after one space: the e-mail line if an e-mail was typed, the phone line if a phone was typed, and the consent line if consent was given. |
| Widget.NameOnlyMessage | src/whatsapp-lead-widget.js:617-622 | With only a name and no consent, the message is the bare greeting. |
| Widget.BuildWhatsAppUrl | src/whatsapp-lead-widget.js:617-626 | The address is `https://wa.me/`, then the number the modal targets, then `?text=`, then the encoded message, as consecutive slices. |
| Widget.UrlCarriesTarget | src/whatsapp-lead-widget.js:617-626 | For a non-empty digit target, the address is a WhatsApp link, and the link interceptor reads the target number back from it. |
| Widget.HandleLinkClick | src/whatsapp-lead-widget.js:713-721 | A click is left alone exactly when the anchor is marked to skip or is not a WhatsApp link. It is aborted exactly when a WhatsApp link's number cannot be decoded. An opened modal keeps the configured number and targets the extracted number, or the configured one when the link has none. |
| Widget.OtherLinksIgnored | src/whatsapp-lead-widget.js:713-721 | An anchor matching none of the three patterns is never intercepted. |
| Widget.ShortLinkOpensOnItsNumber | src/whatsapp-lead-widget.js:713-721 | A click on `https://wa.me/<digits>…` opens the modal on exactly those digits. |
| Widget.NumberlessLinkOpensOnConfigured | src/whatsapp-lead-widget.js:719-720 | A WhatsApp link without a number opens the modal on the configured number. |
| Widget.SettingsOfSettled | src/whatsapp-lead-widget.js:198-222 | On a configuration whose contact fields were settled, each field is rendered exactly when its merged value is enabled, and a field not rendered is never required. The error messages are those of `texts`. |
| Widget.SettingsOfNormalized | src/whatsapp-lead-widget.js:309-327 | On a normalised configuration, each field is rendered exactly when the caller's value over the defaults is enabled, and a field not rendered is never required. The error messages are the caller's texts over the default ones. |
| Widget.InputValue | src/whatsapp-lead-widget.js:491-493 | A rendered input reads as its trimmed value, and one that is not rendered reads as empty. |
| Widget.Submit | src/whatsapp-lead-widget.js:471-570 | A refused submit names at least one problem. A submit that goes through opens the address built from the trimmed values. Its payload is the literal of the trimmed values, merged with the page's tracking data and then with `extraFields`. |
| Widget.SubmitGate | src/whatsapp-lead-widget.js:491-528 | A submit goes through exactly when the name is not blank and every rendered contact field is filled when required. It must also be well formed when filled, unless its configured error message is empty. A filled e-mail must also pass the browser's syntax check. |
| Widget.SubmittedLeadIsPosted | src/whatsapp-lead-widget.js:555-576 | With an endpoint, a lead that went through is posted with the trimmed name, e-mail and phone and the consent text, whatever the IP lookup returned, unless `extraFields` overrides those names. |
| Widget.SubmittedLeadIsSaved | src/whatsapp-lead-widget.js:535-540 | A lead that went through is read back from storage at the same instant, provided the lifetime is not negative. |

## Left out

- The DOM, markup and CSS are not modelled: `getModalMarkup` apart from which fields are rendered, `ensureStyles`, `_buildFab`, `_buildModal`, `_applyPrefill`, focus handling and `_resetForm`.
- The network is not modelled: `_getUserIP` and its timer race (its result is a parameter of `WithUserIp`), and the HTTP POST and its response handling (`PostLead` stops at the request).
- Browser side effects are not modelled: custom events, `alert`, the popup window, `log`, and the GA4 and `dataLayer` pushes of `_trackGA`.
- `updateConfig`, `destroy`, the module's `init`/`destroy` singleton and the `document.readyState` handling are not modelled. They only chain the modelled functions with DOM work.
- `Date` and `toLocaleString` are not modelled: the instant is an integer parameter and the formatted timestamp is an opaque string.
- `URLSearchParams` and `location` are not modelled: the tracking data takes the first value of each parameter as a map, plus the page address and referrer.
- `encodeURIComponent` and `decodeURIComponent` are function parameters.
- DeepMerge.MergeDeep: the result is always an object. With an array as target, JavaScript returns an array copy. The modelled callers, `normalizeConfig` and the payload assembly, never merge into an array. `updateConfig` and `_applyPrefill` can: a caller's `extraFields: []` later merged with an object, or stored data that is an array. Neither of those two is modelled.
- Objects are maps, so the key order of `Object.keys` is not represented. No modelled property depends on it.
- Numbers are integers, so fractions are not represented. NaN appears only as `ToNumber` returning `None`.
- Values.ToDigitsValue: JavaScript numbers are doubles. `String` writes a magnitude of 10^21 or more in exponent form (`1e+21`, so `toDigits` gives `121`), and integers above 2^53 are rounded. The model writes every digit of an exact integer. `Widget.SetNumber`, `Config.NormalizeNumber` and `Storage.ExpiryFor` (`now + minutes·60000`) inherit this, so they are exact only below 2^53 and 10^21.
- Storage.ToNumber: only integers, booleans, null and trimmed plain decimal strings convert; other numeric string syntaxes (signs, fractions, exponents, hex) are NaN, and arrays are always NaN.
- Storage.ReadStorage: text that `JSON.parse` rejects and an empty stored string are both the `Unreadable` entry. Exceptions from `getItem` and `setItem` are not represented. The stored JSON round-trip is taken as the identity on the recorded value.
- Config.ForceOptional: for an array contact field, JavaScript adds `required: false` as a named own property, listed by `Object.keys` after the index keys. `Arr` cannot hold named properties, so the model keeps the array as it was. Every modelled read of `required` is falsy either way.
- Config.Normalize: the model has value semantics. In JavaScript, when the caller passes a falsy or non-object `contactFields`, the merged `email` and `phone` objects are the module's `DEFAULT_CONTACT_FIELDS` objects themselves. The loop then writes `required = false` into those shared defaults. That effect on later configurations is not represented.
- The warning logged for an empty `whatsappNumber` is not modelled.
- Validation.Problems: the browser's `type="email"` syntax check is a parameter, not a definition. Its rules live in the browser, not in the widget; `a@b..c`, for instance, passes the widget's pattern and fails that check. `Widget.Submit` and `Widget.SubmitGate` take it from the surroundings in the same way.
- Characters are Unicode scalar values, while JavaScript strings index UTF-16 code units. `Object.keys` and the spread of a string therefore see two entries for a character outside the Basic Multilingual Plane, where `OwnEntries` sees one.
- A source key `__proto__`, which a plain object literal cannot carry as an own key, replaces the prototype in `mergeDeep` instead of adding an own key. The model treats it as an ordinary key.

=== FILE: basics.dfy ===
/** Failure-carrying wrappers shared by the whole model. */
module Basics {

  /** An optional value: `None` stands for JavaScript's null/undefined results. */
  datatype Option<+T> = None | Some(value: T)

  /** A value or an error: `Err` stands for an exception the source would throw. */
  datatype Result<+T, +E> = Ok(value: T) | Err(error: E)
}

=== FILE: config.dfy ===
/**
 * The widget's configuration: the built-in defaults, `normalizeConfig` (defaults
 * merged under the caller's options, the WhatsApp number reduced to digits,
 * disabled contact fields made optional) and `formatLabel`.
 */
module Config {
  import opened Basics
  import opened Strings
  import opened Values
  import opened DeepMerge

  const DefaultTexts: map<string, Json> := map[
    "welcome" := Str("Olá! Para continuarmos, informe seus dados :)"),
    "nameLabel" := Str("Nome *"),
    "emailLabel" := Str("Email *"),
    "phoneLabel" := Str("Telefone *"),
    "consentLabel" := Str("Aceito receber comunicados"),
    "submit" := Str("Iniciar conversa"),
    "required" := Str("Por favor, preencha os campos obrigatórios."),
    "invalidEmail" := Str("Por favor, informe um email válido."),
    "invalidPhone" := Str("Por favor, informe um telefone válido."),
    "namePlaceholder" := Str("Seu nome"),
    "emailPlaceholder" := Str("seu@email"),
    "phonePlaceholder" := Str("(11) 99999-9999")
  ]

  const DefaultContactFields: map<string, Json> := map[
    "email" := Obj(map["enabled" := Bool(true), "required" := Bool(true)]),
    "phone" := Obj(map["enabled" := Bool(false), "required" := Bool(true)])
  ]

  const DefaultTheme: map<string, Json> := map[
    "primary" := Str("#036d5f"),
    "primaryHover" := Str("#02594d"),
    "bubbleBg" := Str("#efeae2"),
    "inputBg" := Str("#e7ffe7")
  ]

  const DefaultConfig: Json := Obj(map[
    "scriptURL" := Str(""),
    "whatsappNumber" := Str(""),
    "brandImage" := Str(""),
    "brandTitle" := Str("Minha Marca"),
    "brandStatus" := Str("online"),
    "privacyPolicyUrl" := Str("#"),
    "interceptLinks" := Bool(false),
    "enableGA4" := Bool(false),
    "ipLookupTimeoutMs" := Num(800),
    "backgroundPattern" := Str("https://user-images.githubusercontent.com/15075759/28719144-86dc0f70-73b1-11e7-911d-60d70fcded21.png"),
    "extraFields" := Obj(map[]),
    "attachTo" := Str("body"),
    "texts" := Obj(DefaultTexts),
    "theme" := Obj(DefaultTheme),
    "prefill" := Null,
    "storageKey" := Null,
    "storageExpirationMinutes" := Num(60 * 24),
    "contactFields" := Obj(DefaultContactFields)
  ])

  /** The two contact fields whose `required` flag normalisation adjusts, in that order. */
  const ContactFieldNames: seq<string> := ["email", "phone"]

  /**
   * Reading `.enabled` of null/undefined, or creating `.required` on a primitive,
   * throws a TypeError in strict mode; `field` names the contact field involved.
   */
  datatype ConfigError = TypeError(field: string)

  /**
   * One section of the configuration merged once: the section's defaults under
   * whatever the caller passed for it.
   */
  function MergedSection(cfg: Json, key: string, defaults: map<string, Json>): Json
  {
    MergeDeep(Obj(defaults), OrEmpty(Get(cfg, key)))
  }

  /** A contact field is enabled when its `enabled` property is truthy. */
  predicate FieldEnabled(field: Json) {
    Truthy(Get(field, "enabled"))
  }

  /** The field can take a `required` property: a plain object or an array. */
  predicate Settleable(field: Json) {
    field.Obj? || field.Arr?
  }

  /**
   * `after` is what the loop leaves of the contact field `before`: an enabled field
   * as it was, a disabled one still disabled and never required, a disabled plain
   * object with exactly its `required` property set to false.
   */
  ghost predicate SettledFrom(before: Json, after: Json) {
    && (FieldEnabled(before) ==> after == before)
    && (!FieldEnabled(before) ==> !FieldEnabled(after) && !Truthy(Get(after, "required")))
    && (!FieldEnabled(before) && before.Obj? ==> after == Obj(before.fields["required" := Bool(false)]))
  }

  /** An array has no own property named `required`: its own keys are all digits. */
  lemma ArrayHasNoRequired(items: seq<Json>)
    ensures "required" !in OwnEntries(Arr(items))
  {
    forall i | 0 <= i < |items|
      ensures NatToString(i) != "required"
    {
      assert IsDigit(NatToString(i)[0]);
    }
  }

  /**
   * `if (!fields[name].enabled) fields[name].required = false`: an object field
   * gets `required: false`; anything other than an object or an array throws.
   * An array would gain `required` as a named own property, which `Arr` cannot
   * hold, so the array is kept as it is: every read of `required` is falsy either way.
   */
  function ForceOptional(fields: map<string, Json>, name: string): (r: Result<map<string, Json>, ConfigError>)
    ensures r.Err? <==> !Settleable(Lookup(fields, name))
    ensures r.Ok? ==> name in fields && r.value.Keys == fields.Keys && SettledFrom(fields[name], r.value[name])
    ensures r.Ok? ==> forall k :: k in fields && k != name ==> r.value[k] == fields[k]
  {
    match Lookup(fields, name)
    case Obj(f) =>
      if FieldEnabled(Obj(f)) then Ok(fields)
      else
        assert "enabled" != "required";
        Ok(fields[name := Obj(f["required" := Bool(false)])])
    case Arr(items) =>
      ArrayHasNoRequired(items);
      Ok(fields)
    case _ => Err(TypeError(name))
  }

  /** The `["email", "phone"].forEach(...)` loop of `normalizeConfig`. */
  function SettleContactFields(fields: map<string, Json>): (r: Result<map<string, Json>, ConfigError>)
    ensures r.Ok? ==> r.value.Keys == fields.Keys && "email" in fields && "phone" in fields
  {
    match ForceOptional(fields, "email")
    case Err(e) => Err(e)
    case Ok(f1) => ForceOptional(f1, "phone")
  }

  /**
   * The loop fails exactly when one of the two contact fields is neither an object
   * nor an array; otherwise each is settled and every other field is kept.
   */
  lemma SettleContactFieldsSpec(fields: map<string, Json>)
    ensures var r := SettleContactFields(fields);
            r.Err? <==> !Settleable(Lookup(fields, "email")) || !Settleable(Lookup(fields, "phone"))
    ensures var r := SettleContactFields(fields);
            r.Ok? ==> && SettledFrom(fields["email"], r.value["email"])
                      && SettledFrom(fields["phone"], r.value["phone"])
    ensures var r := SettleContactFields(fields);
            r.Ok? ==> forall k :: k in fields && k != "email" && k != "phone" ==> r.value[k] == fields[k]
  {
    assert "email" != "phone";
  }

  /** `merged[key] = mergeDeep(defaults, merged[key] || {})`. */
  function MergeSectionDefaults(m: map<string, Json>, key: string, defaults: map<string, Json>): (r: map<string, Json>)
    ensures r.Keys == m.Keys + {key}
    ensures forall k :: k in m && k != key ==> r[k] == m[k]
    ensures r[key].Obj? && defaults.Keys <= r[key].fields.Keys
  {
    m[key := MergeDeep(Obj(defaults), OrEmpty(Lookup(m, key)))]
  }

  /** `merged.whatsappNumber = toDigits(merged.whatsappNumber)`. */
  function NormalizeNumber(m: map<string, Json>): (r: map<string, Json>)
    ensures r.Keys == m.Keys + {"whatsappNumber"}
    ensures forall k :: k in m && k != "whatsappNumber" ==> r[k] == m[k]
    ensures r["whatsappNumber"].Str? && AllDigits(r["whatsappNumber"].s)
  {
    m["whatsappNumber" := Str(ToDigitsValue(Lookup(m, "whatsappNumber")))]
  }

  /**
   * The built-in defaults `normalizeConfig` merges under the caller's options: the
   * whole configuration and, separately, its three nested sections.
   */
  datatype Defaults = Defaults(
    config: Json,
    texts: map<string, Json>,
    theme: map<string, Json>,
    contactFields: map<string, Json>)

  /** `DEFAULT_CONFIG`, `DEFAULT_TEXTS`, `DEFAULT_THEME` and `DEFAULT_CONTACT_FIELDS`. */
  const WidgetDefaults: Defaults := Defaults(DefaultConfig, DefaultTexts, DefaultTheme, DefaultContactFields)

  /** The whole-configuration defaults carry the section defaults under their keys. */
  predicate Coherent(d: Defaults) {
    && d.config.Obj?
    && "texts" in d.config.fields && d.config.fields["texts"] == Obj(d.texts)
    && "theme" in d.config.fields && d.config.fields["theme"] == Obj(d.theme)
    && "contactFields" in d.config.fields && d.config.fields["contactFields"] == Obj(d.contactFields)
  }

  lemma WidgetDefaultsCoherent()
    ensures Coherent(WidgetDefaults)
  {
  }

  /** The keys `normalizeConfig` rewrites after the first merge. */
  const RewrittenKeys: set<string> := {"whatsappNumber", "texts", "theme", "contactFields"}

  /** The keys `normalizeConfig` rewrites are pairwise distinct. */
  lemma RewrittenKeysDistinct()
    ensures "whatsappNumber" != "texts" && "whatsappNumber" != "theme" && "whatsappNumber" != "contactFields"
    ensures "texts" != "theme" && "texts" != "contactFields" && "theme" != "contactFields"
  {
  }

  /** The configuration as `normalizeConfig` holds it just before the contact-field loop. */
  function Prepare(d: Defaults, cfg: Json): (m: map<string, Json>)
    ensures var merged := MergeDeep(d.config, OrEmpty(cfg));
            && m.Keys == merged.fields.Keys + RewrittenKeys
            && m["whatsappNumber"] == Str(ToDigitsValue(Lookup(merged.fields, "whatsappNumber")))
            && m["texts"] == MergeDeep(Obj(d.texts), OrEmpty(Lookup(merged.fields, "texts")))
            && m["theme"] == MergeDeep(Obj(d.theme), OrEmpty(Lookup(merged.fields, "theme")))
            && m["contactFields"] == MergeDeep(Obj(d.contactFields), OrEmpty(Lookup(merged.fields, "contactFields")))
  {
    var merged := MergeDeep(d.config, OrEmpty(cfg)).fields;
    var withNumber := NormalizeNumber(merged);
    var withTexts := MergeSectionDefaults(withNumber, "texts", d.texts);
    var withTheme := MergeSectionDefaults(withTexts, "theme", d.theme);
    RewrittenKeysDistinct();
    MergeSectionDefaults(withTheme, "contactFields", d.contactFields)
  }

  /** The contact-field loop and the return of `normalizeConfig`, on the prepared configuration. */
  function Finish(m: map<string, Json>): (r: Result<Json, ConfigError>)
    requires "contactFields" in m && m["contactFields"].Obj?
    ensures r.Ok? ==> r.value.Obj? && r.value.fields.Keys == m.Keys
  {
    match SettleContactFields(m["contactFields"].fields)
    case Err(e) => Err(e)
    case Ok(fields) => Ok(Obj(m["contactFields" := Obj(fields)]))
  }

  /**
   * The loop fails exactly when a contact field is neither an object nor an array;
   * otherwise it settles both contact fields and changes nothing else.
   */
  lemma FinishSpec(m: map<string, Json>)
    requires "contactFields" in m && m["contactFields"].Obj?
    ensures var cf := m["contactFields"].fields;
            Finish(m).Err? <==> !Settleable(Lookup(cf, "email")) || !Settleable(Lookup(cf, "phone"))
    ensures Finish(m).Ok? ==> forall k :: k in m && k != "contactFields" ==> Finish(m).value.fields[k] == m[k]
    ensures var cf := m["contactFields"].fields;
            Finish(m).Ok? ==>
              var after := Finish(m).value.fields["contactFields"];
              && after.Obj?
              && SettledFrom(cf["email"], after.fields["email"])
              && SettledFrom(cf["phone"], after.fields["phone"])
  {
    SettleContactFieldsSpec(m["contactFields"].fields);
  }

  /** `normalizeConfig(cfg)` over the defaults `d`. */
  function Normalize(d: Defaults, cfg: Json): (r: Result<Json, ConfigError>)
    ensures r.Ok? ==> r.value.Obj?
    ensures r.Ok? ==> r.value.fields.Keys == OwnEntries(d.config).Keys + OwnEntries(cfg).Keys + RewrittenKeys
  {
    OwnEntriesOrEmpty(cfg);
    Finish(Prepare(d, cfg))
  }

  /** `normalizeConfig(cfg)` with the widget's own defaults. */
  function NormalizeConfig(cfg: Json): Result<Json, ConfigError>
  {
    Normalize(WidgetDefaults, cfg)
  }

  /**
   * A normalised configuration has a digits-only number and every section holds
   * at least the keys of its defaults.
   */
  lemma NormalizeShape(d: Defaults, cfg: Json)
    ensures var r := Normalize(d, cfg);
            r.Ok? ==> && r.value.fields["whatsappNumber"].Str?
                      && AllDigits(r.value.fields["whatsappNumber"].s)
                      && r.value.fields["texts"].Obj? && d.texts.Keys <= r.value.fields["texts"].fields.Keys
                      && r.value.fields["theme"].Obj? && d.theme.Keys <= r.value.fields["theme"].fields.Keys
                      && r.value.fields["contactFields"].Obj?
                      && d.contactFields.Keys <= r.value.fields["contactFields"].fields.Keys
  {
    RewrittenKeysDistinct();
  }

  /**
   * The double merge of a section (once inside the whole configuration, once on
   * its own) equals a single merge of the section's defaults under the caller's value.
   */
  lemma SectionMergedOnce(config: Json, cfg: Json, key: string, defaults: map<string, Json>)
    requires config.Obj? && key in config.fields && config.fields[key] == Obj(defaults)
    ensures MergeDeep(Obj(defaults), OrEmpty(Lookup(MergeDeep(config, OrEmpty(cfg)).fields, key)))
            == MergedSection(cfg, key, defaults)
  {
    var d := Obj(defaults);
    var s := OwnEntries(cfg);
    OwnEntriesOrEmpty(cfg);
    MergeDeepSpec(config, OrEmpty(cfg));
    var merged := MergeDeep(config, OrEmpty(cfg)).fields;
    if key in s {
      if s[key].Obj? {
        assert BaseFor(config.fields, key) == d;
        MergeIdempotent(d, s[key]);
      }
    } else {
      assert merged[key] == d;
      MergeSelf(d);
      MergeEmpty(d);
    }
  }

  /**
   * Before the contact-field loop the texts, theme and contact-field sections are
   * each the section's defaults merged once under the caller's value for it, and
   * the number is the digits of the caller's string.
   */
  lemma PrepareSections(d: Defaults, cfg: Json)
    requires Coherent(d)
    ensures var m := Prepare(d, cfg);
            && m["texts"] == MergedSection(cfg, "texts", d.texts)
            && m["theme"] == MergedSection(cfg, "theme", d.theme)
            && m["contactFields"] == MergedSection(cfg, "contactFields", d.contactFields)
    ensures Get(cfg, "whatsappNumber").Str? ==>
              Prepare(d, cfg)["whatsappNumber"] == Str(KeepDigits(Get(cfg, "whatsappNumber").s))
  {
    SectionMergedOnce(d.config, cfg, "texts", d.texts);
    SectionMergedOnce(d.config, cfg, "theme", d.theme);
    SectionMergedOnce(d.config, cfg, "contactFields", d.contactFields);
    OwnEntriesOrEmpty(cfg);
    MergeDeepSpec(d.config, OrEmpty(cfg));
  }

  /**
   * `normalizeConfig` throws exactly when a merged contact field is neither an
   * object nor an array.
   */
  lemma NormalizeFails(d: Defaults, cfg: Json)
    requires Coherent(d)
    ensures var cf := MergedSection(cfg, "contactFields", d.contactFields).fields;
            Normalize(d, cfg).Err? <==> !Settleable(Lookup(cf, "email")) || !Settleable(Lookup(cf, "phone"))
  {
    PrepareSections(d, cfg);
    FinishSpec(Prepare(d, cfg));
  }

  /**
   * When `normalizeConfig` succeeds, each contact field is settled from its
   * merged value.
   */
  lemma NormalizeSettlesFields(d: Defaults, cfg: Json)
    requires Coherent(d)
    requires Normalize(d, cfg).Ok?
    ensures var cf := MergedSection(cfg, "contactFields", d.contactFields).fields;
            var after := Normalize(d, cfg).value.fields["contactFields"];
            && after.Obj? && "email" in cf && "phone" in cf
            && SettledFrom(cf["email"], after.fields["email"])
            && SettledFrom(cf["phone"], after.fields["phone"])
  {
    PrepareSections(d, cfg);
    FinishSpec(Prepare(d, cfg));
  }

  /**
   * When `normalizeConfig` succeeds, the texts and theme are their defaults merged
   * once under the caller's values, and the number is the digits of the caller's string.
   */
  lemma NormalizeKeepsSections(d: Defaults, cfg: Json)
    requires Coherent(d)
    requires Normalize(d, cfg).Ok?
    ensures var r := Normalize(d, cfg).value.fields;
            && r["texts"] == MergedSection(cfg, "texts", d.texts)
            && r["theme"] == MergedSection(cfg, "theme", d.theme)
            && (Get(cfg, "whatsappNumber").Str? ==>
                  r["whatsappNumber"] == Str(KeepDigits(Get(cfg, "whatsappNumber").s)))
  {
    PrepareSections(d, cfg);
    FinishSpec(Prepare(d, cfg));
    RewrittenKeysDistinct();
  }

  /**
   * When both default contact fields are plain objects, `normalizeConfig` throws
   * exactly when the caller sets a contact field to something that is neither an
   * object nor an array (null, a string, a boolean, a number).
   */
  lemma NormalizeFailsOnCallerValue(d: Defaults, cfg: Json)
    requires Coherent(d)
    requires "email" in d.contactFields && d.contactFields["email"].Obj?
    requires "phone" in d.contactFields && d.contactFields["phone"].Obj?
    ensures var user := OwnEntries(Get(cfg, "contactFields"));
            Normalize(d, cfg).Err? <==>
              || ("email" in user && !Settleable(user["email"]))
              || ("phone" in user && !Settleable(user["phone"]))
  {
    NormalizeFails(d, cfg);
    OwnEntriesOrEmpty(Get(cfg, "contactFields"));
    MergeDeepSpec(Obj(d.contactFields), OrEmpty(Get(cfg, "contactFields")));
  }

  /** The same with the widget's own defaults. */
  lemma NormalizeConfigFails(cfg: Json)
    ensures var user := OwnEntries(Get(cfg, "contactFields"));
            NormalizeConfig(cfg).Err? <==>
              || ("email" in user && !Settleable(user["email"]))
              || ("phone" in user && !Settleable(user["phone"]))
  {
    WidgetDefaultsCoherent();
    NormalizeFailsOnCallerValue(WidgetDefaults, cfg);
  }

  // ----- labels -----

  /**
   * `text.replace(/\s*\*$/, "")`: a trailing `*` is removed together with the
   * whitespace right before it; any other text is left as it is.
   */
  function StripMarker(s: string): (r: string)
    ensures |r| <= |s| && r == s[..|r|]
    ensures (s == [] || s[|s| - 1] != '*') ==> r == s
    ensures s != [] && s[|s| - 1] == '*' ==>
              && |r| < |s|
              && AllSpace(s[|r|..|s| - 1])
              && (r == [] || !IsJsSpace(r[|r| - 1]))
  {
    if s != [] && s[|s| - 1] == '*' then
      var body := s[..|s| - 1];
      body[..|body| - TrailingSpaces(body, 0)]
    else s
  }

  /** `String(label || "")`: the text a label is formatted from. */
  function LabelText(text: Json): string {
    if Truthy(text) then ToJsString(text) else ""
  }

  /**
   * `formatLabel(text, required)`: the label text without its own marker, followed
   * by " *" exactly when `required` is truthy.
   */
  function FormatLabel(text: Json, required: Json): (r: string)
    ensures Truthy(required) ==> |r| >= 2 && r[|r| - 2..] == " *"
    ensures var t := LabelText(text);
            var b := if Truthy(required) then r[..|r| - 2] else r;
            && |b| <= |t| && b == t[..|b|]
            && ((t == [] || t[|t| - 1] != '*') ==> b == t)
            && (t != [] && t[|t| - 1] == '*' ==>
                  && |b| < |t|
                  && AllSpace(t[|b|..|t| - 1])
                  && (b == [] || !IsJsSpace(b[|b| - 1])))
            && ((b == [] || b[|b| - 1] != '*') ==> (r != [] && r[|r| - 1] == '*' <==> Truthy(required)))
  {
    var base := StripMarker(LabelText(text));
    if Truthy(required) then base + " *" else base
  }

  /** Appending the marker to a text that does not end in whitespace is undone by stripping it. */
  lemma StripMarkerOfMarked(base: string)
    requires base == [] || !IsJsSpace(base[|base| - 1])
    ensures StripMarker(base + " *") == base
  {
    var once := base + " *";
    var body := once[..|once| - 1];
    assert body == base + " ";
    assert TrailingSpaces(body, 0) == 1 by {
      assert body[..|body| - 1] == base;
    }
  }

  /**
   * Formatting an already formatted required text changes nothing when the
   * text does not end in whitespace: the marker is never doubled.
   */
  lemma FormatLabelStable(text: Json)
    requires var base := StripMarker(LabelText(text));
             base == [] || !IsJsSpace(base[|base| - 1])
    ensures FormatLabel(Str(FormatLabel(text, Bool(true))), Bool(true)) == FormatLabel(text, Bool(true))
  {
    var base := StripMarker(LabelText(text));
    var once := FormatLabel(text, Bool(true));
    assert once == base + " *";
    StripMarkerOfMarked(base);
    assert Truthy(Str(once)) && ToJsString(Str(once)) == once;
  }

  /** The default name text carries the marker already and keeps a single one. */
  lemma FormatNameLabelExample()
    ensures FormatLabel(Str("Nome *"), Bool(true)) == "Nome *"
  {
    assert StripMarker("Nome *") == "Nome" by {
      assert "Nome *"[..5] == "Nome ";
      assert TrailingSpaces("Nome ", 0) == 1 by { assert "Nome "[..4] == "Nome"; }
    }
  }

  /** An optional field loses the marker of its default text. */
  lemma FormatOptionalLabelExample()
    ensures FormatLabel(Str("Email *"), Bool(false)) == "Email"
  {
    assert StripMarker("Email *") == "Email" by {
      assert "Email *"[..6] == "Email ";
      assert TrailingSpaces("Email ", 0) == 1 by { assert "Email "[..5] == "Email"; }
    }
  }
}

=== FILE: lead.dfy ===
/**
 * The lead `_handleSubmit` sends: the typed values, the campaign parameters of
 * the page and the configured `extraFields`, merged with `mergeDeep`, and the
 * form data `_postLead` posts from it.
 */
module Lead {
  import opened Strings
  import opened Values
  import opened DeepMerge

  /** `TRACKING_PARAMS`: the query parameters copied into every lead. */
  const TrackingParams: set<string> :=
    {"utm_source", "utm_medium", "utm_campaign", "gclid", "fbclid", "gbraid", "wbraid"}

  /**
   * `collectTrackingData()`. The query string is given as the first value of each
   * parameter (what `URLSearchParams.get` returns); the page address and the
   * referrer are given as strings, empty when absent.
   */
  function TrackingData(params: map<string, string>, pageUrl: string, referrer: string): (r: map<string, Json>)
    ensures forall k :: k in TrackingParams ==> (k in r <==> k in params && params[k] != "")
    ensures forall k :: k in TrackingParams && k in r ==> r[k] == Str(params[k])
    ensures "page_url" in r <==> pageUrl != ""
    ensures pageUrl != "" ==> r["page_url"] == Str(pageUrl)
    ensures "referrer" in r <==> referrer != ""
    ensures referrer != "" ==> r["referrer"] == Str(referrer)
    ensures forall k :: k in r ==> k in TrackingParams || k == "page_url" || k == "referrer"
    ensures forall k :: k in r ==> r[k].Str? && r[k].s != ""
  {
    var fromQuery := map k | k in TrackingParams && k in params && params[k] != "" :: Str(params[k]);
    var withPage := if pageUrl != "" then fromQuery["page_url" := Str(pageUrl)] else fromQuery;
    if referrer != "" then withPage["referrer" := Str(referrer)] else withPage
  }

  /** The value of the `consent` field: `"Sim"` when the box is ticked, `"Não"` otherwise. */
  function ConsentText(consent: bool): string
  {
    if consent then "Sim" else "Não"
  }

  /**
   * The object literal of the payload: the typed values, the consent as text, the
   * formatted instant twice, the browser's user agent and the page address.
   */
  function BasePayload(name: string, email: string, phone: string, consent: bool,
                       timestamp: string, userAgent: string, pageUrl: string): map<string, Json>
  {
    map[
      "nome" := Str(name),
      "email" := Str(email),
      "telefone" := Str(phone),
      "consent" := Str(ConsentText(consent)),
      "timestamp" := Str(timestamp),
      "data/hora da ação" := Str(timestamp),
      "userAgent" := Str(userAgent),
      "pageUrl" := Str(pageUrl)]
  }

  /** The payload literal carries the typed values, verbatim, under the names the backend reads. */
  lemma BasePayloadFields(name: string, email: string, phone: string, consent: bool,
                          timestamp: string, userAgent: string, pageUrl: string)
    ensures var b := BasePayload(name, email, phone, consent, timestamp, userAgent, pageUrl);
            && b.Keys == {"nome", "email", "telefone", "consent", "timestamp", "data/hora da ação", "userAgent", "pageUrl"}
            && b["nome"] == Str(name) && b["email"] == Str(email) && b["telefone"] == Str(phone)
            && b["consent"] == Str(ConsentText(consent)) && (ConsentText(consent) == "Sim" <==> consent)
            && (forall k :: k in b ==> b[k].Str?)
  {
  }

  /** `mergeDeep(mergeDeep(base, tracking), extraFields || {})`. */
  function AssemblePayload(base: map<string, Json>, tracking: map<string, Json>, extra: Json): (p: Json)
    ensures p.Obj?
    ensures p.fields.Keys == base.Keys + tracking.Keys + OwnEntries(extra).Keys
  {
    OwnEntriesOrEmpty(extra);
    MergeDeep(MergeDeep(Obj(base), Obj(tracking)), OrEmpty(extra))
  }

  /**
   * Which value each payload key ends up with: `extraFields` wins over the tracking
   * data, which wins over the typed values; a plain-object extra value is merged
   * into whatever was there.
   */
  lemma PayloadPrecedence(base: map<string, Json>, tracking: map<string, Json>, extra: Json, k: string)
    requires forall t :: t in tracking ==> !tracking[t].Obj?
    ensures var p := AssemblePayload(base, tracking, extra).fields;
            var e := OwnEntries(extra);
            && (k in p <==> k in base || k in tracking || k in e)
            && (k in e && !e[k].Obj? ==> p[k] == e[k])
            && (k in e && e[k].Obj? ==> p[k] == MergeDeep(BaseFor(base + tracking, k), e[k]))
            && (k !in e && k in tracking ==> p[k] == tracking[k])
            && (k !in e && k !in tracking && k in base ==> p[k] == base[k])
  {
    MergeFlat(base, tracking);
    OwnEntriesOrEmpty(extra);
    MergeDeepSpec(Obj(base + tracking), OrEmpty(extra));
  }

  /** `if (ip) payload.userIP = ip`. */
  function WithUserIp(payload: map<string, Json>, ip: Json): (r: map<string, Json>)
    ensures Truthy(ip) ==> r.Keys == payload.Keys + {"userIP"} && r["userIP"] == ip
    ensures !Truthy(ip) ==> r == payload
    ensures forall k :: k in payload && k != "userIP" ==> k in r && r[k] == payload[k]
  {
    if Truthy(ip) then payload["userIP" := ip] else payload
  }

  /** What `_postLead` does: nothing (`"skipped"`), or a POST of form data to the endpoint. */
  datatype PostRequest =
    | Skipped
    | Post(url: string, form: map<string, string>)

  /** The entries `formData.append(key, value)` receives: the non-nullish values, as strings. */
  function FormEntries(payload: map<string, Json>): (form: map<string, string>)
    ensures forall k :: k in form <==> k in payload && !IsNullish(payload[k])
    ensures forall k :: k in form && payload[k].Str? ==> form[k] == payload[k].s
  {
    map k | k in payload && !IsNullish(payload[k]) :: ToJsString(payload[k])
  }

  /** `_postLead(payload)`: skipped when no `scriptURL` is configured. */
  function PostLead(scriptUrl: Json, payload: map<string, Json>): (r: PostRequest)
    ensures r.Skipped? <==> !Truthy(scriptUrl)
    ensures r.Post? ==> r.url == ToJsString(scriptUrl) && r.form == FormEntries(payload)
  {
    if !Truthy(scriptUrl) then Skipped else Post(ToJsString(scriptUrl), FormEntries(payload))
  }

  /**
   * With an endpoint, a payload entry that is a string, and that neither the
   * tracking data nor `extraFields` overrides, is posted exactly as it was in the
   * payload literal.
   */
  lemma PostedBaseValue(scriptUrl: Json, base: map<string, Json>, tracking: map<string, Json>,
                        extra: Json, ip: Json, k: string, v: string)
    requires Truthy(scriptUrl)
    requires forall t :: t in tracking ==> !tracking[t].Obj?
    requires k in base && base[k] == Str(v) && k !in tracking && k !in OwnEntries(extra) && k != "userIP"
    ensures var r := PostLead(scriptUrl, WithUserIp(AssemblePayload(base, tracking, extra).fields, ip));
            r.Post? && k in r.form && r.form[k] == v
  {
    PayloadPrecedence(base, tracking, extra, k);
  }

  /** The tracking data never uses the names of the typed values. */
  lemma TrackingDataKeys(params: map<string, string>, pageUrl: string, referrer: string)
    ensures var t := TrackingData(params, pageUrl, referrer);
            && "nome" !in t && "email" !in t && "telefone" !in t && "consent" !in t
            && (forall k :: k in t ==> !t[k].Obj?)
  {
    TypedNamesUntracked();
  }

  /** None of the typed values' names is a tracking parameter, `page_url` or `referrer`. */
  lemma TypedNamesUntracked()
    ensures forall k :: k in {"nome", "email", "telefone", "consent"} ==>
              k !in TrackingParams && k != "page_url" && k != "referrer"
  {
  }

  /** The four typed entries of a payload literal, posted as they were. */
  lemma PostedTypedEntries(scriptUrl: Json, base: map<string, Json>, tracking: map<string, Json>, extra: Json, ip: Json,
                           name: string, email: string, phone: string, consent: string)
    requires Truthy(scriptUrl)
    requires forall t :: t in tracking ==> !tracking[t].Obj?
    requires "nome" in base && base["nome"] == Str(name) && "email" in base && base["email"] == Str(email)
    requires "telefone" in base && base["telefone"] == Str(phone) && "consent" in base && base["consent"] == Str(consent)
    requires "nome" !in tracking && "email" !in tracking && "telefone" !in tracking && "consent" !in tracking
    requires forall k :: k in OwnEntries(extra) ==> k != "nome" && k != "email" && k != "telefone" && k != "consent"
    ensures var r := PostLead(scriptUrl, WithUserIp(AssemblePayload(base, tracking, extra).fields, ip));
            && r.Post?
            && "nome" in r.form && r.form["nome"] == name
            && "email" in r.form && r.form["email"] == email
            && "telefone" in r.form && r.form["telefone"] == phone
            && "consent" in r.form && r.form["consent"] == consent
  {
    PostedBaseValue(scriptUrl, base, tracking, extra, ip, "nome", name);
    PostedBaseValue(scriptUrl, base, tracking, extra, ip, "email", email);
    PostedBaseValue(scriptUrl, base, tracking, extra, ip, "telefone", phone);
    PostedBaseValue(scriptUrl, base, tracking, extra, ip, "consent", consent);
  }

  /**
   * With an endpoint, a lead always sends the typed name, e-mail and phone and the
   * consent text: none of them can be nullish, and unless `extraFields` overrides
   * them they reach the backend exactly as typed and trimmed.
   */
  lemma PostedLeadCarriesTypedValues(scriptUrl: Json, name: string, email: string, phone: string, consent: bool,
                                     timestamp: string, userAgent: string, pageUrl: string,
                                     params: map<string, string>, referrer: string, extra: Json, ip: Json)
    requires Truthy(scriptUrl)
    requires forall k :: k in OwnEntries(extra) ==> k != "nome" && k != "email" && k != "telefone" && k != "consent"
    ensures var base := BasePayload(name, email, phone, consent, timestamp, userAgent, pageUrl);
            var tracking := TrackingData(params, pageUrl, referrer);
            var r := PostLead(scriptUrl, WithUserIp(AssemblePayload(base, tracking, extra).fields, ip));
            && r.Post?
            && "nome" in r.form && r.form["nome"] == name
            && "email" in r.form && r.form["email"] == email
            && "telefone" in r.form && r.form["telefone"] == phone
            && "consent" in r.form && r.form["consent"] == ConsentText(consent)
  {
    BasePayloadFields(name, email, phone, consent, timestamp, userAgent, pageUrl);
    TrackingDataKeys(params, pageUrl, referrer);
    PostedTypedEntries(scriptUrl, BasePayload(name, email, phone, consent, timestamp, userAgent, pageUrl),
                       TrackingData(params, pageUrl, referrer), extra, ip, name, email, phone, ConsentText(consent));
  }
}

=== FILE: links.dfy ===
/**
 * `_isWhatsAppLink` and `_extractNumber`: recognising WhatsApp links in an
 * anchor's `href` and pulling the phone number out of them. The regular
 * expressions of the source are written out as scans over the string; all of
 * them carry the `/i` flag, so literals are compared after ASCII lower-casing.
 */
module Links {
  import opened Basics
  import opened Strings

  /** The fixed pieces of text the three link patterns look for. */
  datatype Marker =
    | WaMe        // `wa\.me\/\d`: the short-link host, a slash and a first digit
    | ApiSend     // `api\.whatsapp\.com\/send`
    | PhoneParam  // `[?&#]phone=[^&#]`: a `phone` parameter with a non-empty value

  /** `&` and `#` end a parameter value: `[^&#]` is every other character. */
  predicate InParamValue(c: char) {
    c != '&' && c != '#'
  }

  /** The marker `m` starts at index `i` of `s`. */
  predicate MarkerAt(m: Marker, s: string, i: nat) {
    match m
    case WaMe => MatchesAt(s, i, "wa.me/") && i + 6 < |s| && IsDigit(s[i + 6])
    case ApiSend => MatchesAt(s, i, "api.whatsapp.com/send")
    case PhoneParam =>
      && i + 7 < |s|
      && (s[i] == '?' || s[i] == '&' || s[i] == '#')
      && MatchesAt(s, i + 1, "phone=")
      && InParamValue(s[i + 7])
  }

  /** The leftmost index at or after `from` where `m` starts: where a regex search finds it. */
  function FindMarker(m: Marker, s: string, from: nat): (r: Option<nat>)
    ensures r.Some? ==> from <= r.value < |s| && MarkerAt(m, s, r.value)
    ensures r.Some? ==> forall j :: from <= j < r.value ==> !MarkerAt(m, s, j)
    ensures r.None? ==> forall j :: from <= j ==> !MarkerAt(m, s, j)
    decreases |s| - from
  {
    if from >= |s| then None
    else if MarkerAt(m, s, from) then Some(from)
    else FindMarker(m, s, from + 1)
  }

  /** The prefix `whatsapp://send` of the app-scheme links. */
  const Scheme: string := "whatsapp://send"

  /** Where the lazy `.*?` of the app-scheme pattern starts: right after `whatsapp://send?`. */
  const QueryStart: nat := |Scheme| + 1

  /** `_isWhatsAppLink(href)`. */
  predicate IsWhatsAppLink(href: string) {
    || FindMarker(WaMe, href, 0).Some?
    || FindMarker(ApiSend, href, 0).Some?
    || MatchesAt(href, 0, Scheme)
  }

  /** The three regular expressions as statements about positions. */
  ghost predicate WhatsAppPattern(href: string) {
    || (exists i :: MarkerAt(WaMe, href, i))
    || (exists i :: MarkerAt(ApiSend, href, i))
    || MatchesAt(href, 0, Scheme)
  }

  lemma IsWhatsAppLinkMeaning(href: string)
    ensures IsWhatsAppLink(href) <==> WhatsAppPattern(href)
  {
    if exists i :: MarkerAt(WaMe, href, i) {
      var i :| MarkerAt(WaMe, href, i);
      assert FindMarker(WaMe, href, 0).Some?;
    }
    if exists i :: MarkerAt(ApiSend, href, i) {
      var i :| MarkerAt(ApiSend, href, i);
      assert FindMarker(ApiSend, href, 0).Some?;
    }
  }

  /** The greedy capture `(\d+)` or `([^&#]+)` starting at `start`: the longest run of `p`. */
  function Capture(p: char -> bool, s: string, start: nat): (r: string)
    requires start <= |s|
    ensures start + |r| <= |s| && r == s[start..start + |r|]
    ensures forall k :: 0 <= k < |r| ==> p(r[k])
    ensures start + |r| < |s| ==> !p(s[start + |r|])
  {
    s[start..start + RunLength(p, s[start..])]
  }

  /** `phone=` followed by at least one value character starts at index `k`. */
  predicate PhoneAt(s: string, k: nat) {
    k + 6 < |s| && MatchesAt(s, k, "phone=") && InParamValue(s[k + 6])
  }

  /** No line terminator lies in `s[from..to]`: `.` can match all of it. */
  predicate NoBreak(s: string, from: nat, to: nat) {
    forall i :: from <= i < to && i < |s| ==> !IsLineTerminator(s[i])
  }

  /** `k` is where `.*?phone=` tried from `from` stops: the first `phone=` with a value before any line break. */
  predicate FirstLazyPhoneAt(s: string, from: nat, k: nat) {
    && from <= k
    && PhoneAt(s, k)
    && NoBreak(s, from, k)
    && forall j :: from <= j < k ==> !PhoneAt(s, j)
  }

  /**
   * The lazy `.*?phone=([^&#]+)` of the app-scheme pattern, tried from index `k`:
   * the first `phone=` with a non-empty value, not crossing a line terminator.
   */
  function FindLazyPhone(s: string, k: nat): (r: Option<nat>)
    ensures r.Some? ==> FirstLazyPhoneAt(s, k, r.value)
    ensures r.None? ==> forall j :: k <= j && NoBreak(s, k, j) ==> !PhoneAt(s, j)
    decreases |s| - k
  {
    if PhoneAt(s, k) then Some(k)
    else if k < |s| && !IsLineTerminator(s[k]) then FindLazyPhone(s, k + 1)
    else None
  }

  /**
   * `_extractNumber(href)`; `decode` is `decodeURIComponent`, `None` when it throws
   * (the exception then leaves the click handler, so `None` means no number at all).
   */
  function ExtractNumber(href: string, decode: string -> Option<string>): (r: Option<string>)
    ensures r.Some? ==> AllDigits(r.value)
  {
    match FindMarker(WaMe, href, 0)
    case Some(i) => Some(ToDigits(Capture(IsDigit, href, i + 6)))
    case None =>
      match FindMarker(PhoneParam, href, 0)
      case Some(i) => DecodedDigits(decode, Capture(InParamValue, href, i + 7))
      case None =>
        if MatchesAt(href, 0, Scheme + "?") then
          match FindLazyPhone(href, QueryStart)
          case Some(k) => DecodedDigits(decode, Capture(InParamValue, href, k + 6))
          case None => Some("")
        else Some("")
  }

  /** `toDigits(decodeURIComponent(value))`. */
  function DecodedDigits(decode: string -> Option<string>, value: string): (r: Option<string>)
    ensures r.Some? ==> AllDigits(r.value)
    ensures decode(value).None? <==> r.None?
    ensures decode(value).Some? ==> r == Some(KeepDigits(decode(value).value))
  {
    match decode(value)
    case None => None
    case Some(text) => Some(ToDigits(text))
  }

  /**
   * The digits right after the first `wa.me/` win: whatever `phone` parameter the
   * link carries, and whatever `decodeURIComponent` would do, the number is that
   * run of digits, in full.
   */
  lemma WaMeDigitsWin(href: string, decode: string -> Option<string>, i: nat)
    requires MarkerAt(WaMe, href, i)
    requires forall j :: 0 <= j < i ==> !MarkerAt(WaMe, href, j)
    ensures var r := ExtractNumber(href, decode);
            && r.Some? && r.value != [] && r.value == href[i + 6..i + 6 + |r.value|]
            && (i + 6 + |r.value| < |href| ==> !IsDigit(href[i + 6 + |r.value|]))
  {
    var digits := Capture(IsDigit, href, i + 6);
    assert FindMarker(WaMe, href, 0) == Some(i);
    ToDigitsOfDigits(digits);
  }

  /**
   * A link without `wa.me/<digit>` but with a `?phone=`, `&phone=` or `#phone=`
   * parameter gets the digits of that parameter's decoded value.
   */
  lemma PhoneParamNumber(href: string, decode: string -> Option<string>, i: nat)
    requires forall j :: !MarkerAt(WaMe, href, j)
    requires MarkerAt(PhoneParam, href, i)
    requires forall j :: 0 <= j < i ==> !MarkerAt(PhoneParam, href, j)
    ensures var value := Capture(InParamValue, href, i + 7);
            && value != []
            && ExtractNumber(href, decode) == DecodedDigits(decode, value)
  {
    assert FindMarker(PhoneParam, href, 0) == Some(i);
  }

  /** The leftmost `m` in `s` starts at index `i`. */
  predicate FirstMarkerAt(m: Marker, s: string, i: nat) {
    MarkerAt(m, s, i) && forall j :: 0 <= j < i ==> !MarkerAt(m, s, j)
  }

  /** The lazy scan stops at the first `phone=` with a value, whichever way it is found. */
  lemma LazyPhoneFound(s: string, from: nat, k: nat)
    requires FirstLazyPhoneAt(s, from, k)
    ensures FindLazyPhone(s, from) == Some(k)
  {
    assert PhoneAt(s, k) && NoBreak(s, from, k);
  }

  /**
   * An app-scheme link `whatsapp://send?…` with neither `wa.me/<digit>` nor a
   * `[?&#]phone=` parameter takes the value after the first `phone=` that the
   * lazy `.*?` reaches on the first line.
   */
  lemma SchemePhoneNumber(href: string, decode: string -> Option<string>, k: nat)
    requires forall j :: !MarkerAt(WaMe, href, j)
    requires forall j :: !MarkerAt(PhoneParam, href, j)
    requires MatchesAt(href, 0, Scheme + "?")
    requires FirstLazyPhoneAt(href, QueryStart, k)
    ensures var value := Capture(InParamValue, href, k + 6);
            && value != []
            && ExtractNumber(href, decode) == DecodedDigits(decode, value)
  {
    LazyPhoneFound(href, QueryStart, k);
  }

  /** A link that none of the three number patterns matches has the empty number. */
  lemma NoPatternNoNumber(href: string, decode: string -> Option<string>)
    requires forall j :: !MarkerAt(WaMe, href, j)
    requires forall j :: !MarkerAt(PhoneParam, href, j)
    requires MatchesAt(href, 0, Scheme + "?") ==>
               forall k :: QueryStart <= k && NoBreak(href, QueryStart, k) ==> !PhoneAt(href, k)
    ensures ExtractNumber(href, decode) == Some("")
  {
  }

  /** A failed extraction names the branch it took and the value decoding threw on. */
  lemma FailedBranch(href: string, decode: string -> Option<string>)
    requires ExtractNumber(href, decode).None?
    ensures forall j :: !MarkerAt(WaMe, href, j)
    ensures || (exists i: nat :: FirstMarkerAt(PhoneParam, href, i) && decode(Capture(InParamValue, href, i + 7)).None?)
            || (&& (forall j :: !MarkerAt(PhoneParam, href, j))
                && MatchesAt(href, 0, Scheme + "?")
                && exists k: nat :: FirstLazyPhoneAt(href, QueryStart, k) && decode(Capture(InParamValue, href, k + 6)).None?)
  {
    var p := FindMarker(PhoneParam, href, 0);
    if p.Some? {
      assert FirstMarkerAt(PhoneParam, href, p.value);
    } else {
      var k := FindLazyPhone(href, QueryStart).value;
      assert FirstLazyPhoneAt(href, QueryStart, k);
    }
  }

  /**
   * No number at all comes out only when `decodeURIComponent` throws on the value
   * that the taken branch captured: the first `[?&#]phone=` value, or, without one,
   * the value the app-scheme pattern reaches.
   */
  lemma ExtractFailsOnlyOnDecode(href: string, decode: string -> Option<string>)
    ensures ExtractNumber(href, decode).None? <==>
              && (forall j :: !MarkerAt(WaMe, href, j))
              && (|| (exists i: nat :: FirstMarkerAt(PhoneParam, href, i) && decode(Capture(InParamValue, href, i + 7)).None?)
                  || (&& (forall j :: !MarkerAt(PhoneParam, href, j))
                      && MatchesAt(href, 0, Scheme + "?")
                      && exists k: nat :: FirstLazyPhoneAt(href, QueryStart, k) && decode(Capture(InParamValue, href, k + 6)).None?))
  {
    if ExtractNumber(href, decode).None? {
      FailedBranch(href, decode);
    }
    if forall j :: !MarkerAt(WaMe, href, j) {
      if exists i: nat :: FirstMarkerAt(PhoneParam, href, i) && decode(Capture(InParamValue, href, i + 7)).None? {
        var i: nat :| FirstMarkerAt(PhoneParam, href, i) && decode(Capture(InParamValue, href, i + 7)).None?;
        PhoneParamNumber(href, decode, i);
      }
      if && (forall j :: !MarkerAt(PhoneParam, href, j))
         && MatchesAt(href, 0, Scheme + "?")
         && exists k: nat :: FirstLazyPhoneAt(href, QueryStart, k) && decode(Capture(InParamValue, href, k + 6)).None? {
        var k: nat :| FirstLazyPhoneAt(href, QueryStart, k) && decode(Capture(InParamValue, href, k + 6)).None?;
        SchemePhoneNumber(href, decode, k);
      }
    }
  }

  /** Without a `w` past the first character, and no `a` second, no `wa.me/` can start anywhere. */
  lemma NoWaMe(s: string)
    requires forall j :: 0 < j < |s| ==> LowerChar(s[j]) != 'w'
    requires |s| > 1 ==> LowerChar(s[1]) != 'a'
    ensures forall j :: !MarkerAt(WaMe, s, j)
  {
    forall j: nat | j + 6 < |s|
      ensures !MarkerAt(WaMe, s, j)
    {
      if j == 0 {
        assert LowerChar(s[j + 1]) != "wa.me/"[1];
      } else {
        assert LowerChar(s[j + 0]) != "wa.me/"[0];
      }
    }
  }

  /** Where the markers sit in `whatsapp://send?phone=<digits>`. */
  lemma SchemeLinkMarkers(digits: string)
    requires digits != [] && AllDigits(digits)
    ensures var href := Scheme + "?phone=" + digits;
            && (forall j :: !MarkerAt(WaMe, href, j))
            && MarkerAt(PhoneParam, href, 15)
            && (forall j :: 0 <= j < 15 ==> !MarkerAt(PhoneParam, href, j))
            && Capture(InParamValue, href, 22) == digits
  {
    var href := Scheme + "?phone=" + digits;
    var prefix := Scheme + "?phone=";
    assert |prefix| == 22;
    assert href[..22] == prefix && href[22..] == digits;
    NoWaMe(href);
    forall j | 0 <= j < 15
      ensures !MarkerAt(PhoneParam, href, j)
    {
      assert href[j] == prefix[j];
    }
    assert forall k :: 22 <= k < |href| ==> InParamValue(href[k]);
  }

  /**
   * An app-scheme link `whatsapp://send?phone=<digits>` yields its digits, once
   * `decodeURIComponent` has left them as they are.
   */
  lemma SchemeLinkNumber(digits: string, decode: string -> Option<string>)
    requires digits != [] && AllDigits(digits)
    requires decode(digits) == Some(digits)
    ensures ExtractNumber(Scheme + "?phone=" + digits, decode) == Some(digits)
  {
    SchemeLinkMarkers(digits);
    PhoneParamNumber(Scheme + "?phone=" + digits, decode, 15);
    ToDigitsOfDigits(digits);
  }

  /** The short-link prefix `_buildWhatsAppURL` writes. */
  const WaMeBase: string := "https://wa.me/"

  /** Where the markers sit in `https://wa.me/<digits><rest>`. */
  lemma WaMeUrlMarkers(number: string, rest: string)
    requires number != [] && AllDigits(number)
    requires rest == [] || !IsDigit(rest[0])
    ensures var href := WaMeBase + number + rest;
            && MarkerAt(WaMe, href, 8)
            && (forall j :: 0 <= j < 8 ==> !MarkerAt(WaMe, href, j))
            && Capture(IsDigit, href, 14) == number
  {
    var href := WaMeBase + number + rest;
    assert href[..14] == WaMeBase && href[14..14 + |number|] == number;
    assert IsDigit(href[14]);
    forall j | 0 <= j < 8
      ensures !MarkerAt(WaMe, href, j)
    {
      assert LowerChar(href[j + 0]) != "wa.me/"[0];
    }
    var c := Capture(IsDigit, href, 14);
    assert forall k :: 14 <= k < 14 + |number| ==> IsDigit(href[k]);
    assert 14 + |number| < |href| ==> !IsDigit(href[14 + |number|]) by {
      if 14 + |number| < |href| {
        assert href[14 + |number|] == rest[0];
      }
    }
    assert |c| == |number| by {
      assert 14 + |c| < |href| ==> !IsDigit(href[14 + |c|]);
    }
  }

  /**
   * A short link `https://wa.me/<digits>` followed by anything that does not start
   * with a digit is a WhatsApp link, and its number is exactly those digits.
   */
  lemma WaMeUrlNumber(number: string, rest: string, decode: string -> Option<string>)
    requires number != [] && AllDigits(number)
    requires rest == [] || !IsDigit(rest[0])
    ensures IsWhatsAppLink(WaMeBase + number + rest)
    ensures ExtractNumber(WaMeBase + number + rest, decode) == Some(number)
  {
    var href := WaMeBase + number + rest;
    WaMeUrlMarkers(number, rest);
    assert FindMarker(WaMe, href, 0) == Some(8);
    ToDigitsOfDigits(number);
  }
}

=== FILE: merge.dfy ===
/**
 * `mergeDeep(target, source)`: copy the own entries of `target`, then assign every
 * own key of `source`; a plain-object source value is merged recursively into the
 * copied value (or into `{}` when that value is falsy), any other value replaces
 * it wholesale.
 */
module DeepMerge {
  import opened Strings
  import opened Values

  /** `output[key] || {}`: the value a nested merge starts from. */
  function BaseFor(out: map<string, Json>, k: string): (r: Json)
    ensures Truthy(r)
  {
    if k in out && Truthy(out[k]) then out[k] else EmptyObject
  }

  /** The value `mergeDeep` assigns to `output[k]` for the source value `v`. */
  function AssignValue(out: map<string, Json>, k: string, v: Json): (r: Json)
    ensures v.Obj? ==> r.Obj?
    decreases v, 3
  {
    if v.Obj? then MergeDeep(BaseFor(out, k), v) else v
  }

  /** The loop over `Object.keys(source || {})`, starting from the copied output. */
  function AssignAll(out: map<string, Json>, source: Json): (r: map<string, Json>)
    ensures r.Keys == out.Keys + OwnEntries(source).Keys
    decreases source, 1
  {
    match source
    case Obj(m) =>
      map k | k in out.Keys + m.Keys :: if k in m then AssignValue(out, k, m[k]) else out[k]
    case Arr(items) =>
      out + IndexedAssignments(out, items)
    case Str(s) =>
      // one-character strings are never plain objects: plain assignment
      out + OwnEntries(source)
    case _ => out
  }

  /** The assignments made for the elements of an array source, keyed by index. */
  function IndexedAssignments(out: map<string, Json>, items: seq<Json>): (r: map<string, Json>)
    ensures r.Keys == IndexedEntries(items).Keys
    ensures forall i :: 0 <= i < |items| ==> r[NatToString(i)] == AssignValue(out, NatToString(i), items[i])
    decreases Arr(items), 0
  {
    IndexKeysDistinct();
    map i | 0 <= i < |items| :: NatToString(i) := AssignValue(out, NatToString(i), items[i])
  }

  /** `mergeDeep(target, source)`; the result is always a fresh object. */
  function MergeDeep(target: Json, source: Json): (r: Json)
    ensures r.Obj?
    ensures r.fields.Keys == OwnEntries(target).Keys + OwnEntries(source).Keys
    decreases source, 2
  {
    Obj(AssignAll(OwnEntries(target), source))
  }

  /** The index of an array element from its key. */
  lemma IndexOfKey(items: seq<Json>, k: string) returns (i: nat)
    requires k in IndexedEntries(items)
    ensures i < |items| && NatToString(i) == k && IndexedEntries(items)[k] == items[i]
  {
    i :| 0 <= i < |items| && NatToString(i) == k;
  }

  /**
   * `r` is what assigning every own entry of `s` onto a copy of `t` gives: keys of
   * both, target values where the source is silent, source values that are not
   * plain objects, and recursive merges for plain-object source values.
   */
  ghost predicate MergedFrom(r: map<string, Json>, t: map<string, Json>, s: map<string, Json>) {
    && r.Keys == t.Keys + s.Keys
    && (forall k :: k in t && k !in s ==> r[k] == t[k])
    && (forall k :: k in s && !s[k].Obj? ==> r[k] == s[k])
    && (forall k :: k in s && s[k].Obj? ==> r[k] == MergeDeep(BaseFor(t, k), s[k]))
  }

  /** The per-key meaning of `mergeDeep`, whatever the kinds of its arguments. */
  lemma MergeDeepSpec(target: Json, source: Json)
    ensures MergedFrom(MergeDeep(target, source).fields, OwnEntries(target), OwnEntries(source))
  {
    if source.Obj? {
      MergeObjectSource(target, source);
    } else if source.Arr? {
      MergeArraySource(target, source);
    } else if source.Str? {
      MergeStringSource(target, source);
    } else {
      MergeOtherSource(target, source);
    }
  }

  lemma MergeObjectSource(target: Json, source: Json)
    requires source.Obj?
    ensures MergedFrom(MergeDeep(target, source).fields, OwnEntries(target), OwnEntries(source))
  {
    var t, m := OwnEntries(target), source.fields;
    var r := AssignAll(t, source);
    assert r == map k | k in t.Keys + m.Keys :: if k in m then AssignValue(t, k, m[k]) else t[k];
  }

  lemma MergeArraySource(target: Json, source: Json)
    requires source.Arr?
    ensures MergedFrom(MergeDeep(target, source).fields, OwnEntries(target), OwnEntries(source))
  {
    var t, items := OwnEntries(target), source.items;
    var r, s := AssignAll(t, source), IndexedEntries(items);
    forall k | k in s
      ensures r[k] == AssignValue(t, k, s[k])
    {
      var i := IndexOfKey(items, k);
      assert r[NatToString(i)] == AssignValue(t, NatToString(i), items[i]);
    }
  }

  lemma MergeStringSource(target: Json, source: Json)
    requires source.Str?
    ensures MergedFrom(MergeDeep(target, source).fields, OwnEntries(target), OwnEntries(source))
  {
    var s := OwnEntries(source);
    forall k | k in s
      ensures !s[k].Obj?
    {
      var i := IndexOfKey(Characters(source.s), k);
    }
  }

  lemma MergeOtherSource(target: Json, source: Json)
    requires !source.Obj? && !source.Arr? && !source.Str?
    ensures MergedFrom(MergeDeep(target, source).fields, OwnEntries(target), OwnEntries(source))
  {
  }

  /** Merging a plain object into itself gives it back unchanged. */
  lemma {:induction false} MergeSelf(o: Json)
    requires o.Obj?
    ensures MergeDeep(o, o) == o
    decreases o
  {
    var r := MergeDeep(o, o).fields;
    MergeDeepSpec(o, o);
    forall k | k in o.fields
      ensures r[k] == o.fields[k]
    {
      if o.fields[k].Obj? {
        assert BaseFor(o.fields, k) == o.fields[k];
        MergeSelf(o.fields[k]);
      }
    }
  }

  /** Merging an empty source copies the target's own entries. */
  lemma MergeEmpty(target: Json)
    ensures MergeDeep(target, EmptyObject) == Obj(OwnEntries(target))
  {
    MergeDeepSpec(target, EmptyObject);
  }

  /**
   * Merging the same defaults twice is the same as merging them once: the
   * second pass of `normalizeConfig` over an already merged section changes nothing.
   */
  lemma {:induction false} MergeIdempotent(target: Json, source: Json)
    requires source.Obj?
    ensures MergeDeep(target, MergeDeep(target, source)) == MergeDeep(target, source)
    decreases source
  {
    var t := OwnEntries(target);
    var m := MergeDeep(target, source);
    var r := MergeDeep(target, m);
    MergeDeepSpec(target, source);
    MergeDeepSpec(target, m);
    forall k | k in m.fields
      ensures r.fields[k] == m.fields[k]
    {
      if k in source.fields {
        if source.fields[k].Obj? {
          MergeIdempotent(BaseFor(t, k), source.fields[k]);
        }
      } else if t[k].Obj? {
        assert BaseFor(t, k) == t[k];
        MergeSelf(t[k]);
      }
    }
  }

  /**
   * With no plain object among the source values, `mergeDeep` of two objects is
   * the shallow union in which the source wins (what `Object.assign` does).
   */
  lemma MergeFlat(target: map<string, Json>, source: map<string, Json>)
    requires forall k :: k in source ==> !source[k].Obj?
    ensures MergeDeep(Obj(target), Obj(source)) == Obj(target + source)
  {
    MergeDeepSpec(Obj(target), Obj(source));
  }
}

=== FILE: storage.dfy ===
/**
 * `readStorage` and `writeStorage`: the visitor's last answers kept in
 * `localStorage` under the configured key, with an optional expiry instant.
 * The clock is a parameter (`now`, milliseconds since the epoch) and the
 * storage is a value passed in and returned.
 */
module Storage {
  import opened Basics
  import opened Strings
  import opened Values

  /**
   * What `getItem` gives back, after `JSON.parse`: a parsed value, or text that
   * reads as nothing (the empty string, or text `JSON.parse` rejects).
   */
  datatype Entry = Parsed(value: Json) | Unreadable

  /** `global.localStorage`: missing (falsy), or present with its items. */
  datatype LocalStorage = Unavailable | Available(items: map<string, Entry>)

  /** The value of a string of decimal digits. */
  function DecimalValue(s: string): (n: nat)
    requires AllDigits(s)
    ensures s == [] ==> n == 0
  {
    if s == [] then 0 else 10 * DecimalValue(s[..|s| - 1]) + (s[|s| - 1] as int - '0' as int)
  }

  /**
   * JavaScript's conversion to a number, as far as the stored values need it;
   * `None` is NaN. Strings are numeric only when, once trimmed, they are empty
   * or plain decimal digits.
   */
  function ToNumber(v: Json): (r: Option<int>)
    ensures v.Num? ==> r == Some(v.n)
    ensures v.Undefined? || v.Obj? ==> r.None?
  {
    match v
    case Null => Some(0)
    case Undefined => None
    case Bool(b) => Some(if b then 1 else 0)
    case Num(n) => Some(n)
    case Str(s) => if AllDigits(Trim(s)) then Some(DecimalValue(Trim(s))) else None
    case Arr(_) => None
    case Obj(_) => None
  }

  /** The key `localStorage` files the entry under: the configured key as a string. */
  function StorageKeyName(key: Json): string
  {
    ToJsString(key)
  }

  /**
   * The `expires` field `writeStorage` records: `now + minutes * 60 * 1000` when
   * `minutes` is truthy, `null` otherwise. A NaN instant is serialised as `null`.
   */
  function ExpiryFor(minutes: Json, now: int): (e: Json)
    ensures !Truthy(minutes) ==> e == Null
    ensures Truthy(minutes) && minutes.Num? ==> e == Num(now + minutes.n * 60000)
    ensures e.Null? || e.Num?
  {
    if !Truthy(minutes) then Null
    else match ToNumber(minutes)
      case Some(m) => Num(now + m * 60 * 1000)
      case None => Null
  }

  /** The record `writeStorage` serialises. */
  function StoredRecord(data: Json, expires: Json): Json
  {
    Obj(map["data" := data, "expires" := expires])
  }

  /** `parsed.expires && Date.now() > parsed.expires`. */
  predicate Expired(expires: Json, now: int) {
    Truthy(expires) && ToNumber(expires).Some? && now > ToNumber(expires).value
  }

  /** `writeStorage(cfg, data)` at instant `now`. */
  function WriteStorage(ls: LocalStorage, key: Json, minutes: Json, data: Json, now: int): (r: LocalStorage)
    ensures !Truthy(key) || ls.Unavailable? ==> r == ls
    ensures Truthy(key) && ls.Available? ==>
              && r.Available?
              && r.items == ls.items[StorageKeyName(key) := Parsed(StoredRecord(data, ExpiryFor(minutes, now)))]
  {
    if !Truthy(key) || ls.Unavailable? then ls
    else Available(ls.items[StorageKeyName(key) := Parsed(StoredRecord(data, ExpiryFor(minutes, now)))])
  }

  /**
   * `readStorage(cfg)` at instant `now`: the stored data (when truthy) and the
   * storage afterwards, which loses the entry when it has expired.
   */
  function ReadStorage(ls: LocalStorage, key: Json, now: int): (r: (Option<Json>, LocalStorage))
    ensures r.0.Some? ==> Truthy(r.0.value)
    ensures r.1 == ls || (ls.Available? && r.1 == Available(ls.items - {StorageKeyName(key)}))
  {
    if !Truthy(key) || ls.Unavailable? then (None, ls)
    else
      var k := StorageKeyName(key);
      if k !in ls.items then (None, ls)
      else match ls.items[k]
        case Unreadable => (None, ls)
        case Parsed(v) =>
          if !(v.Obj? || v.Arr?) then (None, ls)
          else if Expired(Get(v, "expires"), now) then (None, Available(ls.items - {k}))
          else if Truthy(Get(v, "data")) then (Some(Get(v, "data")), ls)
          else (None, ls)
  }

  /** With no key configured, or no storage, reading finds nothing and changes nothing. */
  lemma ReadWithoutKey(ls: LocalStorage, key: Json, now: int)
    requires !Truthy(key) || ls.Unavailable?
    ensures ReadStorage(ls, key, now) == (None, ls)
  {
  }

  /**
   * Reading right after a write gives back the written data (when truthy) and
   * keeps the storage, unless the recorded instant has passed; then it gives
   * nothing and drops exactly that entry.
   */
  lemma ReadAfterWrite(ls: LocalStorage, key: Json, minutes: Json, data: Json, written: int, now: int)
    requires Truthy(key) && ls.Available?
    ensures var after := WriteStorage(ls, key, minutes, data, written);
            var expires := ExpiryFor(minutes, written);
            ReadStorage(after, key, now) ==
              if Expired(expires, now) then (None, Available(after.items - {StorageKeyName(key)}))
              else if Truthy(data) then (Some(data), after)
              else (None, after)
  {
    var after := WriteStorage(ls, key, minutes, data, written);
    var record := StoredRecord(data, ExpiryFor(minutes, written));
    assert "data" != "expires";
    assert Get(record, "data") == data && Get(record, "expires") == ExpiryFor(minutes, written);
  }

  /**
   * With a numeric lifetime of `minutes`, written data is read back up to and
   * including the instant `written + minutes * 60000`, and is gone after it.
   */
  lemma ExpiryBoundary(ls: LocalStorage, key: Json, m: int, data: Json, written: int, now: int)
    requires Truthy(key) && ls.Available? && m != 0 && Truthy(data)
    requires written + m * 60000 != 0
    ensures var after := WriteStorage(ls, key, Num(m), data, written);
            var r := ReadStorage(after, key, now);
            && (now <= written + m * 60000 ==> r == (Some(data), after))
            && (now > written + m * 60000 ==>
                  r == (None, Available(ls.items - {StorageKeyName(key)})))
  {
    ReadAfterWrite(ls, key, Num(m), data, written, now);
    var after := WriteStorage(ls, key, Num(m), data, written);
    assert after.items - {StorageKeyName(key)} == ls.items - {StorageKeyName(key)};
  }

  /** With a falsy lifetime the written data never expires. */
  lemma NoExpiryWithoutLifetime(ls: LocalStorage, key: Json, minutes: Json, data: Json, written: int, now: int)
    requires Truthy(key) && ls.Available? && !Truthy(minutes) && Truthy(data)
    ensures var after := WriteStorage(ls, key, minutes, data, written);
            ReadStorage(after, key, now) == (Some(data), after)
  {
    ReadAfterWrite(ls, key, minutes, data, written, now);
  }

  /** Reading only ever removes the configured entry; every other entry stays as it was. */
  lemma ReadKeepsOtherEntries(ls: LocalStorage, key: Json, now: int, other: string)
    requires ls.Available? && other != StorageKeyName(key)
    ensures var r := ReadStorage(ls, key, now).1;
            r.Available? && (other in r.items <==> other in ls.items)
            && (other in ls.items ==> r.items[other] == ls.items[other])
  {
  }

  /** Writing only touches the configured entry. */
  lemma WriteKeepsOtherEntries(ls: LocalStorage, key: Json, minutes: Json, data: Json, now: int, other: string)
    requires ls.Available? && other != StorageKeyName(key)
    ensures var r := WriteStorage(ls, key, minutes, data, now);
            r.Available? && (other in r.items <==> other in ls.items)
            && (other in ls.items ==> r.items[other] == ls.items[other])
  {
  }
}

=== FILE: strings.dfy ===
/**
 * Character classes and string helpers with the meaning JavaScript gives them:
 * `\d`, `\s`, `String.prototype.trim`, ASCII case folding of the `/i` flag,
 * `Array.prototype.join`, and the decimal rendering of integers.
 */
module Strings {
  import opened Basics

  // ----- digits -----

  /** `\d` in a non-Unicode JavaScript regular expression: ASCII 0-9 only. */
  predicate IsDigit(c: char) {
    '0' <= c <= '9'
  }

  predicate AllDigits(s: string) {
    forall i :: 0 <= i < |s| ==> IsDigit(s[i])
  }

  /** Reference definition: the digit characters of `s`, in their original order. */
  function KeepDigits(s: string): (r: string)
    ensures AllDigits(r)
    ensures |r| <= |s|
  {
    if s == [] then []
    else (if IsDigit(s[0]) then [s[0]] else []) + KeepDigits(s[1..])
  }

  /** Length of the longest prefix of `s` whose characters all satisfy `p`. */
  function RunLength(p: char -> bool, s: string): (n: nat)
    ensures n <= |s|
    ensures forall i :: 0 <= i < n ==> p(s[i])
    ensures n < |s| ==> !p(s[n])
  {
    if s == [] || !p(s[0]) then 0 else 1 + RunLength(p, s[1..])
  }

  /** `parts.join(sep)`. */
  function Join(parts: seq<string>, sep: string): string
  {
    if |parts| == 0 then ""
    else if |parts| == 1 then parts[0]
    else parts[0] + sep + Join(parts[1..], sep)
  }

  /** The matches of `/\d+/g`, left to right: the maximal runs of digits. */
  function DigitRuns(s: string): (runs: seq<string>)
    ensures forall i :: 0 <= i < |runs| ==> runs[i] != [] && AllDigits(runs[i])
    decreases |s|
  {
    if s == [] then []
    else if !IsDigit(s[0]) then DigitRuns(s[1..])
    else
      var n := RunLength(IsDigit, s);
      [s[..n]] + DigitRuns(s[n..])
  }

  /**
   * `toDigits` on a string: `(s.match(/\d+/g) || []).join("")`.
   * No match gives `null`, replaced by the empty list, so the result is "".
   */
  function ToDigits(s: string): (r: string)
    ensures r == KeepDigits(s)
    ensures AllDigits(r)
  {
    ToDigitsIsKeepDigits(s);
    Join(DigitRuns(s), "")
  }

  lemma {:induction false} KeepDigitsAppend(a: string, b: string)
    ensures KeepDigits(a + b) == KeepDigits(a) + KeepDigits(b)
  {
    if a == [] {
      assert a + b == b;
    } else {
      var head := if IsDigit(a[0]) then [a[0]] else [];
      assert (a + b)[0] == a[0];
      assert (a + b)[1..] == a[1..] + b;
      assert KeepDigits(a + b) == head + KeepDigits(a[1..] + b);
      KeepDigitsAppend(a[1..], b);
      assert KeepDigits(a) == head + KeepDigits(a[1..]);
    }
  }

  lemma {:induction false} KeepDigitsOfDigits(s: string)
    requires AllDigits(s)
    ensures KeepDigits(s) == s
  {
    if s != [] {
      KeepDigitsOfDigits(s[1..]);
    }
  }

  /** Joining the digit runs gives exactly the digit characters of the input, in order. */
  lemma {:induction false} ToDigitsIsKeepDigits(s: string)
    ensures Join(DigitRuns(s), "") == KeepDigits(s)
    decreases |s|
  {
    if s == [] {
    } else if !IsDigit(s[0]) {
      ToDigitsIsKeepDigits(s[1..]);
    } else {
      var n := RunLength(IsDigit, s);
      var rest := DigitRuns(s[n..]);
      ToDigitsIsKeepDigits(s[n..]);
      assert DigitRuns(s) == [s[..n]] + rest;
      assert Join([s[..n]] + rest, "") == s[..n] + Join(rest, "") by {
        if |rest| > 0 {
          assert ([s[..n]] + rest)[1..] == rest;
        }
      }
      KeepDigitsAppend(s[..n], s[n..]);
      assert s[..n] + s[n..] == s;
      KeepDigitsOfDigits(s[..n]);
    }
  }

  /** Applying `toDigits` twice gives the same result as applying it once. */
  lemma ToDigitsIdempotent(s: string)
    ensures ToDigits(ToDigits(s)) == ToDigits(s)
  {
    KeepDigitsOfDigits(ToDigits(s));
  }

  /** A string of digits only is left unchanged by `toDigits`. */
  lemma ToDigitsOfDigits(s: string)
    requires AllDigits(s)
    ensures ToDigits(s) == s
  {
    KeepDigitsOfDigits(s);
  }

  /** The lowest index in [from, to) holding the character `c`, if any. */
  function FindChar(s: string, c: char, from: nat, to: nat): (r: Option<nat>)
    requires to <= |s|
    ensures r.Some? ==> from <= r.value < to && s[r.value] == c
    ensures r.Some? ==> forall j :: from <= j < r.value ==> s[j] != c
    ensures r.None? ==> forall j :: from <= j < to ==> s[j] != c
    decreases if from < to then to - from else 0
  {
    if from >= to then None
    else if s[from] == c then Some(from)
    else FindChar(s, c, from + 1, to)
  }

  // ----- whitespace -----

  /** `\s` in JavaScript: the WhiteSpace and LineTerminator code points. */
  predicate IsJsSpace(c: char) {
    var n := c as int;
    n == 0x09 || n == 0x0A || n == 0x0B || n == 0x0C || n == 0x0D || n == 0x20
    || n == 0xA0 || n == 0x1680 || (0x2000 <= n <= 0x200A) || n == 0x2028
    || n == 0x2029 || n == 0x202F || n == 0x205F || n == 0x3000 || n == 0xFEFF
  }

  /** The characters `.` does not match in a JavaScript regular expression. */
  predicate IsLineTerminator(c: char) {
    var n := c as int;
    n == 0x0A || n == 0x0D || n == 0x2028 || n == 0x2029
  }

  predicate AllSpace(s: string) {
    forall i :: 0 <= i < |s| ==> IsJsSpace(s[i])
  }

  predicate NoSpace(s: string) {
    forall i :: 0 <= i < |s| ==> !IsJsSpace(s[i])
  }

  /** Number of whitespace characters at the end of `s`, counting no further down than index `lo`. */
  function TrailingSpaces(s: string, lo: nat): (n: nat)
    ensures n <= |s| && (lo <= |s| ==> n <= |s| - lo)
    ensures forall i :: |s| - n <= i < |s| ==> IsJsSpace(s[i])
    ensures lo + n < |s| ==> !IsJsSpace(s[|s| - 1 - n])
    decreases |s|
  {
    if |s| <= lo || !IsJsSpace(s[|s| - 1]) then 0
    else 1 + TrailingSpaces(s[..|s| - 1], lo)
  }

  /** `r` is `s` with all leading and trailing whitespace removed. */
  ghost predicate IsTrimOf(r: string, s: string) {
    && (r == [] || (!IsJsSpace(r[0]) && !IsJsSpace(r[|r| - 1])))
    && exists i :: 0 <= i <= |s| - |r| && s[i..i + |r|] == r && AllSpace(s[..i]) && AllSpace(s[i + |r|..])
  }

  /** `String.prototype.trim`. */
  function Trim(s: string): (r: string)
    ensures IsTrimOf(r, s)
    ensures r == [] <==> AllSpace(s)
  {
    var a := RunLength(IsJsSpace, s);
    var t := TrailingSpaces(s, a);
    TrimBounds(s, a, t);
    s[a..|s| - t]
  }

  /** The trimmed middle sits between two runs of whitespace, and is empty only for blank text. */
  lemma TrimBounds(s: string, a: nat, t: nat)
    requires a == RunLength(IsJsSpace, s)
    requires t == TrailingSpaces(s, a)
    ensures a <= |s| - t
    ensures IsTrimOf(s[a..|s| - t], s)
    ensures s[a..|s| - t] == [] <==> AllSpace(s)
  {
    var r := s[a..|s| - t];
    assert AllSpace(s[..a]) by {
      assert forall i :: 0 <= i < a ==> IsJsSpace(s[i]);
    }
    assert AllSpace(s[|s| - t..]);
    if r != [] {
      assert r[0] == s[a];
      assert r[|r| - 1] == s[|s| - 1 - t];
    }
    assert s[a..a + |r|] == r;
    if a < |s| {
      assert !IsJsSpace(s[a]);
    }
  }

  lemma TrimIdempotent(s: string)
    ensures Trim(Trim(s)) == Trim(s)
  {
    var r := Trim(s);
    if r != [] {
      assert RunLength(IsJsSpace, r) == 0;
      assert TrailingSpaces(r, 0) == 0;
      assert r[0..] == r;
    }
  }

  // ----- case-insensitive matching -----

  /** ASCII lower-casing; the only case folding the `/i` patterns of the widget can see. */
  function LowerChar(c: char): char {
    if 'A' <= c <= 'Z' then (c as int + 32) as char else c
  }

  /** The lower-case literal `pat` occurs in `s` at index `i`, ignoring ASCII case. */
  predicate MatchesAt(s: string, i: nat, pat: string) {
    i + |pat| <= |s| && forall k :: 0 <= k < |pat| ==> LowerChar(s[i + k]) == pat[k]
  }

  // ----- numbers -----

  function DigitChar(d: nat): (c: char)
    requires d < 10
    ensures IsDigit(c)
  {
    ('0' as int + d) as char
  }

  /** The decimal rendering of a natural number, as `String(n)` gives it. */
  function NatToString(n: nat): (r: string)
    ensures r != [] && AllDigits(r)
    ensures n < 10 <==> |r| == 1
  {
    if n < 10 then [DigitChar(n)] else NatToString(n / 10) + [DigitChar(n % 10)]
  }

  /** Distinct numbers have distinct renderings, so index keys never collide. */
  lemma {:induction false} NatToStringInjective(a: nat, b: nat)
    requires NatToString(a) == NatToString(b)
    ensures a == b
    decreases a
  {
    if a >= 10 {
      var sa, sb := NatToString(a), NatToString(b);
      assert sa[|sa| - 1] == DigitChar(a % 10);
      assert sb[|sb| - 1] == DigitChar(b % 10);
      assert sa[..|sa| - 1] == NatToString(a / 10);
      assert sb[..|sb| - 1] == NatToString(b / 10);
      NatToStringInjective(a / 10, b / 10);
    }
  }

  /** `String(n)` for an integer. */
  function IntToString(n: int): (r: string)
    ensures r != []
  {
    if n < 0 then "-" + NatToString(-n) else NatToString(n)
  }
}

=== FILE: validation.dfy ===
/**
 * The checks `_handleSubmit` makes before a lead is sent: the trimmed name is
 * required, the e-mail must have the shape `^\S+@\S+\.\S+$`, the phone must
 * carry at least eight digits, and an enabled field marked required must be filled.
 */
module Validation {
  import opened Basics
  import opened Strings
  import opened Values
  import opened Config

  /** The regular expression `^\S+@\S+\.\S+$`, stated as the positions it needs. */
  ghost predicate EmailPattern(s: string) {
    && NoSpace(s)
    && exists i, j :: 1 <= i && i + 2 <= j <= |s| - 2 && s[i] == '@' && s[j] == '.'
  }

  /**
   * The e-mail shape check as a scan: the first `@` after the first character,
   * then a `.` at least two characters further on and before the last character.
   */
  predicate EmailShape(s: string) {
    && NoSpace(s)
    && |s| >= 2
    && match FindChar(s, '@', 1, |s|)
       case None => false
       case Some(at) => FindChar(s, '.', at + 2, |s| - 1).Some?
  }

  /** The scan accepts exactly the strings the regular expression matches. */
  lemma EmailShapeMatchesPattern(s: string)
    ensures EmailShape(s) <==> EmailPattern(s)
  {
    if EmailPattern(s) {
      var i, j :| 1 <= i && i + 2 <= j <= |s| - 2 && s[i] == '@' && s[j] == '.';
      var at := FindChar(s, '@', 1, |s|);
      assert at.Some? && at.value <= i;
      var dot := FindChar(s, '.', at.value + 2, |s| - 1);
      assert dot.Some?;
    }
    if EmailShape(s) {
      var at := FindChar(s, '@', 1, |s|).value;
      var dot := FindChar(s, '.', at + 2, |s| - 1).value;
      assert 1 <= at && at + 2 <= dot <= |s| - 2 && s[at] == '@' && s[dot] == '.';
    }
  }

  /** `email && !/^\S+@\S+\.\S+$/.test(email)`: a non-empty e-mail of the wrong shape. */
  predicate EmailFlagged(email: string) {
    email != "" && !EmailShape(email)
  }

  /** `phone && toDigits(phone).length < 8`: a non-empty phone with fewer than eight digits. */
  predicate PhoneFlagged(phone: string) {
    phone != "" && |ToDigits(phone)| < 8
  }

  /** Empty values are never flagged: an empty optional field passes both checks. */
  lemma EmptyNeverFlagged()
    ensures !EmailFlagged("") && !PhoneFlagged("")
  {
  }

  /** An e-mail is flagged exactly when it is non-empty and the regular expression rejects it. */
  lemma EmailFlaggedMeaning(email: string)
    ensures EmailFlagged(email) <==> email != "" && !EmailPattern(email)
  {
    EmailShapeMatchesPattern(email);
  }

  /** The number of digit characters of `s`. */
  function DigitCount(s: string): (n: nat)
    ensures n <= |s|
  {
    if s == [] then 0 else (if IsDigit(s[0]) then 1 else 0) + DigitCount(s[1..])
  }

  lemma {:induction false} KeepDigitsLength(s: string)
    ensures |KeepDigits(s)| == DigitCount(s)
  {
    if s != [] {
      KeepDigitsLength(s[1..]);
    }
  }

  /** A phone is flagged exactly when it is non-empty and holds fewer than eight digit characters. */
  lemma PhoneFlaggedMeaning(phone: string)
    ensures PhoneFlagged(phone) <==> phone != "" && DigitCount(phone) < 8
  {
    KeepDigitsLength(phone);
  }

  /** How the form shows a contact field: whether it is rendered, and whether it is marked required. */
  datatype FieldRule = FieldRule(enabled: bool, required: bool)

  /** The rule a contact field of the configuration gives its input. */
  function RuleOf(field: Json): FieldRule
  {
    FieldRule(FieldEnabled(field), Truthy(Get(field, "required")))
  }

  /** Why the form refuses to submit. */
  datatype Problem =
    | NameMissing
    | EmailMissing
    | EmailInvalid
    | EmailMismatch   // the browser's own check of a `type="email"` input rejects the value
    | PhoneMissing
    | PhoneInvalid

  /**
   * The problems of one contact field: missing when it is rendered, required and
   * empty; invalid when it is rendered and its value is flagged.
   */
  function FieldProblems(rule: FieldRule, empty: bool, flagged: bool, missing: Problem, invalid: Problem): (ps: seq<Problem>)
    ensures ps == [] <==> (rule.enabled ==> !(rule.required && empty) && !flagged)
    ensures forall p :: p in ps ==> p == missing || p == invalid
    ensures invalid != missing ==> (invalid in ps <==> rule.enabled && flagged)
    ensures invalid != missing ==> (missing in ps <==> rule.enabled && rule.required && empty)
  {
    (if rule.enabled && rule.required && empty then [missing] else [])
    + (if rule.enabled && flagged then [invalid] else [])
  }

  /**
   * `input.setCustomValidity(message)` converts the message with `String`; an
   * empty message clears the custom error instead of setting one.
   */
  predicate SetsCustomError(message: Json) {
    ToJsString(message) != ""
  }

  /** A problem is in four lists joined together exactly when it is in one of them. */
  lemma InConcat(a: seq<Problem>, b: seq<Problem>, c: seq<Problem>, d: seq<Problem>)
    ensures forall x :: x in a + b + c + d <==> x in a || x in b || x in c || x in d
    ensures a + b + c + d == [] <==> a == [] && b == [] && c == [] && d == []
  {
  }

  /**
   * The problems `form.reportValidity()` reports, in form order, from what each
   * check found: an empty name, and for each contact field whether it is empty and
   * whether its custom error is set; for the e-mail also whether the browser
   * rejects its syntax.
   */
  function FormProblems(nameEmpty: bool, emailRule: FieldRule, emailEmpty: bool, emailBad: bool, emailRejected: bool,
                        phoneRule: FieldRule, phoneEmpty: bool, phoneBad: bool): (ps: seq<Problem>)
    ensures ps == [] <==>
              && !nameEmpty
              && (emailRule.enabled ==> !(emailRule.required && emailEmpty) && !emailBad && !emailRejected)
              && (phoneRule.enabled ==> !(phoneRule.required && phoneEmpty) && !phoneBad)
    ensures NameMissing in ps <==> nameEmpty
    ensures EmailMissing in ps <==> emailRule.enabled && emailRule.required && emailEmpty
    ensures EmailInvalid in ps <==> emailRule.enabled && emailBad
    ensures EmailMismatch in ps <==> emailRule.enabled && emailRejected
    ensures PhoneMissing in ps <==> phoneRule.enabled && phoneRule.required && phoneEmpty
    ensures PhoneInvalid in ps <==> phoneRule.enabled && phoneBad
  {
    var n := if nameEmpty then [NameMissing] else [];
    var e := FieldProblems(emailRule, emailEmpty, emailBad, EmailMissing, EmailInvalid);
    var m := if emailRule.enabled && emailRejected then [EmailMismatch] else [];
    var p := FieldProblems(phoneRule, phoneEmpty, phoneBad, PhoneMissing, PhoneInvalid);
    InConcat(n, e, m, p);
    n + e + m + p
  }

  /**
   * The problems of the trimmed values typed by the visitor. Inputs of disabled
   * fields are not rendered, so they read as empty and carry no constraint. A
   * flagged value is reported with the configured `invalidEmail` or
   * `invalidPhone` text, so it is a problem only when that text is not empty.
   * `emailSyntax` is the browser's check of a non-empty `type="email"` value,
   * which `reportValidity` runs as well.
   */
  function Problems(name: string, email: string, phone: string, emailRule: FieldRule, phoneRule: FieldRule,
                    invalidEmail: Json, invalidPhone: Json, emailSyntax: string -> bool): (ps: seq<Problem>)
    ensures ps == [] <==>
              && name != ""
              && (emailRule.enabled ==>
                    && !(emailRule.required && email == "")
                    && !(EmailFlagged(email) && SetsCustomError(invalidEmail))
                    && (email != "" ==> emailSyntax(email)))
              && (phoneRule.enabled ==>
                    !(phoneRule.required && phone == "") && !(PhoneFlagged(phone) && SetsCustomError(invalidPhone)))
    ensures NameMissing in ps <==> name == ""
  {
    FormProblems(name == "",
                 emailRule, email == "", EmailFlagged(email) && SetsCustomError(invalidEmail), email != "" && !emailSyntax(email),
                 phoneRule, phone == "", PhoneFlagged(phone) && SetsCustomError(invalidPhone))
  }

  /**
   * A shape problem is only ever reported for a rendered field that holds a
   * flagged value, and only when the configured message for it is not empty;
   * the browser's own e-mail check only ever rejects a rendered, non-empty value.
   */
  lemma ShapeProblemsNeedValue(name: string, email: string, phone: string, emailRule: FieldRule, phoneRule: FieldRule,
                               invalidEmail: Json, invalidPhone: Json, emailSyntax: string -> bool)
    ensures var ps := Problems(name, email, phone, emailRule, phoneRule, invalidEmail, invalidPhone, emailSyntax);
            && (EmailInvalid in ps <==> emailRule.enabled && EmailFlagged(email) && SetsCustomError(invalidEmail))
            && (PhoneInvalid in ps <==> phoneRule.enabled && PhoneFlagged(phone) && SetsCustomError(invalidPhone))
            && (EmailMismatch in ps <==> emailRule.enabled && email != "" && !emailSyntax(email))
            && (EmailInvalid in ps ==> email != "")
            && (PhoneInvalid in ps ==> phone != "")
  {
  }

  /** Contact fields the configuration disables never block a submission: only the name counts. */
  lemma DisabledFieldNeverBlocks(name: string, email: string, phone: string, emailField: Json, phoneField: Json,
                                 invalidEmail: Json, invalidPhone: Json, emailSyntax: string -> bool)
    requires !FieldEnabled(emailField) && !FieldEnabled(phoneField)
    ensures Problems(name, email, phone, RuleOf(emailField), RuleOf(phoneField), invalidEmail, invalidPhone, emailSyntax) == []
            <==> name != ""
  {
  }

  /**
   * The contact-field loop of `normalizeConfig` keeps a field's enabled state, and
   * the rule of a disabled field is never `required`.
   */
  lemma SettledRule(before: Json, after: Json)
    requires Settleable(before) && SettledFrom(before, after)
    ensures RuleOf(after).enabled == RuleOf(before).enabled
    ensures !RuleOf(after).enabled ==> !RuleOf(after).required
  {
  }
}

=== FILE: values.dfy ===
/**
 * The JSON-like values the widget passes around (configuration, payloads, stored
 * visitor records) and the JavaScript conversions it applies to them: truthiness,
 * own enumerable keys, property reads, `String(value)` and `toDigits`.
 */
module Values {
  import opened Basics
  import opened Strings

  /**
   * A JavaScript value as far as the widget can observe it. Numbers are integers
   * (the widget never computes with fractions), objects are maps from own keys.
   */
  datatype Json =
    | Null
    | Undefined
    | Bool(b: bool)
    | Num(n: int)
    | Str(s: string)
    | Arr(items: seq<Json>)
    | Obj(fields: map<string, Json>)

  /** JavaScript truthiness: null, undefined, false, 0 and "" are falsy. */
  predicate Truthy(v: Json) {
    match v
    case Null => false
    case Undefined => false
    case Bool(b) => b
    case Num(n) => n != 0
    case Str(s) => s != ""
    case Arr(_) => true
    case Obj(_) => true
  }

  /** `v == null`, which holds for both null and undefined. */
  predicate IsNullish(v: Json) {
    v.Null? || v.Undefined?
  }

  const EmptyObject: Json := Obj(map[])

  /** `v || {}`. */
  function OrEmpty(v: Json): (r: Json)
    ensures Truthy(v) ==> r == v
    ensures !Truthy(v) ==> r == EmptyObject
  {
    if Truthy(v) then v else EmptyObject
  }

  /** Elements of an array-like value keyed by their decimal index, as `Object.keys` lists them. */
  function IndexedEntries(items: seq<Json>): (m: map<string, Json>)
    ensures forall i :: 0 <= i < |items| ==> NatToString(i) in m && m[NatToString(i)] == items[i]
    ensures forall k :: k in m ==> exists i :: 0 <= i < |items| && NatToString(i) == k
  {
    IndexKeysDistinct();
    map i | 0 <= i < |items| :: NatToString(i) := items[i]
  }

  lemma IndexKeysDistinct()
    ensures forall a: nat, b: nat :: NatToString(a) == NatToString(b) ==> a == b
  {
    forall a: nat, b: nat | NatToString(a) == NatToString(b)
      ensures a == b
    {
      NatToStringInjective(a, b);
    }
  }

  /** The characters of a string as one-character strings. */
  function Characters(s: string): (r: seq<Json>)
    ensures |r| == |s|
    ensures forall i :: 0 <= i < |s| ==> r[i] == Str([s[i]])
  {
    seq(|s|, i requires 0 <= i < |s| => Str([s[i]]))
  }

  /**
   * The own enumerable properties of `v` with their values: what `Object.keys(v)`
   * lists and what the spread `{...v}` copies. Arrays and strings expose their
   * indices; null, undefined, booleans and numbers have none.
   */
  function OwnEntries(v: Json): (m: map<string, Json>)
    ensures !Truthy(v) ==> m == map[]
  {
    match v
    case Obj(fields) => fields
    case Arr(items) => IndexedEntries(items)
    case Str(s) => IndexedEntries(Characters(s))
    case _ => map[]
  }

  /** A read of `key` among the entries `m`; a missing entry reads as undefined. */
  function Lookup(m: map<string, Json>, key: string): Json
  {
    if key in m then m[key] else Undefined
  }

  /** A property read `v[key]`. */
  function Get(v: Json, key: string): (r: Json)
    ensures key !in OwnEntries(v) ==> r == Undefined
  {
    Lookup(OwnEntries(v), key)
  }

  /** `Object.keys(v || {})` sees the same entries as `Object.keys(v)`. */
  lemma OwnEntriesOrEmpty(v: Json)
    ensures OwnEntries(OrEmpty(v)) == OwnEntries(v)
  {
  }

  /** `String(v)`. */
  function ToJsString(v: Json): string
    decreases v
  {
    match v
    case Null => "null"
    case Undefined => "undefined"
    case Bool(b) => if b then "true" else "false"
    case Num(n) => IntToString(n)
    case Str(s) => s
    case Arr(items) =>
      Join(seq(|items|, i requires 0 <= i < |items| =>
        if IsNullish(items[i]) then "" else ToJsString(items[i])), ",")
    case Obj(_) => "[object Object]"
  }

  /** `toDigits(value)`: `String(value ?? "")` reduced to its digit characters. */
  function ToDigitsValue(v: Json): (r: string)
    ensures AllDigits(r)
    ensures v.Str? ==> r == KeepDigits(v.s)
    ensures IsNullish(v) ==> r == ""
  {
    ToDigits(if IsNullish(v) then "" else ToJsString(v))
  }
}

=== FILE: widget.dfy ===
/**
 * The widget's number selection and the two flows that end at WhatsApp: a click
 * on a WhatsApp link of the page (`_setupLinkInterceptor`) and the form's submit
 * (`_handleSubmit`), which checks the typed values, saves them, builds the
 * `wa.me` address and assembles the lead.
 */
module Widget {
  import opened Basics
  import opened Strings
  import opened Values
  import opened Storage
  import opened Links
  import opened Config
  import opened Validation
  import opened Lead

  /** The number the widget was configured with and the one the open modal targets. */
  datatype Session = Session(configNumber: string, runtimeNumber: string)

  /** The constructor: the modal first targets the configured number. */
  function Start(configNumber: string): (s: Session)
    ensures s.runtimeNumber == s.configNumber == configNumber
  {
    Session(configNumber, configNumber)
  }

  /** `setNumber(number)`: the digits of whatever was given. */
  function SetNumber(s: Session, number: Json): (r: Session)
    ensures r.configNumber == s.configNumber
    ensures AllDigits(r.runtimeNumber)
    ensures number.Str? ==> r.runtimeNumber == KeepDigits(number.s)
    ensures IsNullish(number) ==> r.runtimeNumber == ""
  {
    s.(runtimeNumber := ToDigitsValue(number))
  }

  /** Setting the number the widget already shows changes nothing. */
  lemma SetNumberIdempotent(s: Session, number: Json)
    ensures var once := SetNumber(s, number);
            SetNumber(once, Str(once.runtimeNumber)) == once
  {
    KeepDigitsOfDigits(SetNumber(s, number).runtimeNumber);
  }

  /** `open(number)`: a truthy number is set, anything else resets to the configured one. */
  function Open(s: Session, number: Json): (r: Session)
    ensures r.configNumber == s.configNumber
    ensures !Truthy(number) ==> r.runtimeNumber == s.configNumber
    ensures AllDigits(s.configNumber) ==> AllDigits(r.runtimeNumber)
  {
    if Truthy(number) then SetNumber(s, number) else s.(runtimeNumber := s.configNumber)
  }

  /** `this.runtimeNumber || this.config.whatsappNumber`. */
  function TargetNumber(s: Session): (n: string)
    ensures s.runtimeNumber != "" ==> n == s.runtimeNumber
    ensures s.runtimeNumber == "" ==> n == s.configNumber
    ensures n == "" ==> s.runtimeNumber == "" && s.configNumber == ""
    ensures AllDigits(s.runtimeNumber) && AllDigits(s.configNumber) ==> AllDigits(n)
  {
    if s.runtimeNumber != "" then s.runtimeNumber else s.configNumber
  }

  /**
   * Which number an opened modal sends to: the configured one when `open` got no
   * number, or got one without any digit; otherwise the digits of the given number.
   */
  lemma OpenTarget(s: Session, number: Json)
    ensures var t := TargetNumber(Open(s, number));
            var digits := KeepDigits(ToJsString(number));
            && (!Truthy(number) || digits == "" ==> t == s.configNumber)
            && (Truthy(number) && digits != "" ==> t == digits)
  {
  }

  // ----- the message and the address -----

  /** The greeting every message starts with. */
  function Greeting(name: string): string
  {
    "Olá! Meu nome é " + name + "."
  }

  /** The `parts` array: the greeting, then the e-mail, phone and consent lines that apply. */
  function MessageParts(name: string, email: string, phone: string, consent: bool): seq<string>
  {
    [Greeting(name)]
    + OptionalPart(email != "", "Email: " + email)
    + OptionalPart(phone != "", "Telefone: " + phone)
    + OptionalPart(consent, "Aceitou receber comunicados.")
  }

  /** `parts.join(" ")`. */
  function ComposeMessage(name: string, email: string, phone: string, consent: bool): string
  {
    Join(MessageParts(name, email, phone, consent), " ")
  }

  /** Every part preceded by `sep`. */
  function Led(parts: seq<string>, sep: string): string
  {
    if parts == [] then "" else sep + parts[0] + Led(parts[1..], sep)
  }

  lemma {:induction false} JoinLed(first: string, rest: seq<string>, sep: string)
    ensures Join([first] + rest, sep) == first + Led(rest, sep)
    decreases |rest|
  {
    if rest != [] {
      assert ([first] + rest)[1..] == rest;
      JoinLed(rest[0], rest[1..], sep);
      assert [rest[0]] + rest[1..] == rest;
    }
  }

  lemma {:induction false} LedAppend(a: seq<string>, b: seq<string>, sep: string)
    ensures Led(a + b, sep) == Led(a, sep) + Led(b, sep)
    decreases |a|
  {
    if a != [] {
      assert (a + b)[1..] == a[1..] + b;
      LedAppend(a[1..], b, sep);
    } else {
      assert a + b == b;
    }
  }

  /** `text` with a separating space in front when `present`, nothing otherwise. */
  function Clause(present: bool, text: string): string
  {
    if present then " " + text else ""
  }

  /** The optional part `[text]` or `[]`, joined after the greeting. */
  function OptionalPart(present: bool, text: string): seq<string>
  {
    if present then [text] else []
  }

  lemma LedOptional(present: bool, text: string)
    ensures Led(OptionalPart(present, text), " ") == Clause(present, text)
  {
    if present {
      assert OptionalPart(present, text)[1..] == [];
    }
  }

  lemma LedThree(e: seq<string>, p: seq<string>, c: seq<string>, sep: string)
    ensures Led(e + p + c, sep) == Led(e, sep) + Led(p, sep) + Led(c, sep)
  {
    LedAppend(e + p, c, sep);
    LedAppend(e, p, sep);
  }

  /** Joining a first part and three optional groups puts the separator before each present part. */
  lemma JoinThree(first: string, e: seq<string>, p: seq<string>, c: seq<string>, sep: string)
    ensures Join([first] + e + p + c, sep) == first + Led(e, sep) + Led(p, sep) + Led(c, sep)
  {
    assert [first] + e + p + c == [first] + (e + p + c);
    JoinLed(first, e + p + c, sep);
    LedThree(e, p, c, sep);
  }

  /**
   * The message is the greeting followed, in this order and each after one space,
   * by the e-mail line when an e-mail was typed, the phone line when a phone was
   * typed, and the consent line when the box was ticked.
   */
  lemma ComposeMessageShape(name: string, email: string, phone: string, consent: bool)
    ensures ComposeMessage(name, email, phone, consent) ==
              Greeting(name)
              + Clause(email != "", "Email: " + email)
              + Clause(phone != "", "Telefone: " + phone)
              + Clause(consent, "Aceitou receber comunicados.")
  {
    var e := OptionalPart(email != "", "Email: " + email);
    var p := OptionalPart(phone != "", "Telefone: " + phone);
    var c := OptionalPart(consent, "Aceitou receber comunicados.");
    assert MessageParts(name, email, phone, consent) == [Greeting(name)] + e + p + c;
    JoinThree(Greeting(name), e, p, c, " ");
    LedOptional(email != "", "Email: " + email);
    LedOptional(phone != "", "Telefone: " + phone);
    LedOptional(consent, "Aceitou receber comunicados.");
  }

  /** A visitor who typed only a name and gave no consent sends the bare greeting. */
  lemma NameOnlyMessage(name: string)
    ensures ComposeMessage(name, "", "", false) == "Olá! Meu nome é " + name + "."
  {
    ComposeMessageShape(name, "", "", false);
  }

  /**
   * `_buildWhatsAppURL(name, email, phone, consent)`; `encode` is `encodeURIComponent`.
   * The address is the short-link base, the number the modal targets, and a `text`
   * parameter carrying the encoded message, one after the other.
   */
  function BuildWhatsAppUrl(s: Session, name: string, email: string, phone: string, consent: bool,
                            encode: string -> string): (url: string)
    ensures var n := |WaMeBase| + |TargetNumber(s)|;
            && n + 6 <= |url|
            && url[..|WaMeBase|] == WaMeBase
            && url[|WaMeBase|..n] == TargetNumber(s)
            && url[n..n + 6] == "?text="
            && url[n + 6..] == encode(ComposeMessage(name, email, phone, consent))
  {
    WaMeBase + TargetNumber(s) + "?text=" + encode(ComposeMessage(name, email, phone, consent))
  }

  /**
   * The address the form opens is itself a WhatsApp link, and reading its number
   * back the way the link interceptor does gives the number the modal targets.
   */
  lemma UrlCarriesTarget(s: Session, name: string, email: string, phone: string, consent: bool,
                         encode: string -> string, decode: string -> Option<string>)
    requires TargetNumber(s) != [] && AllDigits(TargetNumber(s))
    ensures var url := BuildWhatsAppUrl(s, name, email, phone, consent, encode);
            IsWhatsAppLink(url) && ExtractNumber(url, decode) == Some(TargetNumber(s))
  {
    var rest := "?text=" + encode(ComposeMessage(name, email, phone, consent));
    assert WaMeBase + TargetNumber(s) + "?text=" + encode(ComposeMessage(name, email, phone, consent))
        == WaMeBase + TargetNumber(s) + rest;
    WaMeUrlNumber(TargetNumber(s), rest, decode);
  }

  // ----- link clicks -----

  /** What a captured click on an anchor does. */
  datatype Click =
    | Ignored                 // not a WhatsApp link, or marked `data-skip-wa-widget`: the browser follows it
    | Opened(session: Session) // default prevented, the modal opens
    | Aborted                 // default prevented, then `decodeURIComponent` threw: nothing opens

  /** The link handler for an anchor with attribute `href` (empty when absent). */
  function HandleLinkClick(s: Session, href: string, skip: bool, decode: string -> Option<string>): (r: Click)
    ensures r.Ignored? <==> skip || !IsWhatsAppLink(href)
    ensures r.Aborted? <==> !skip && IsWhatsAppLink(href) && ExtractNumber(href, decode).None?
    ensures r.Opened? ==> r.session.configNumber == s.configNumber
    ensures r.Opened? ==>
              && ExtractNumber(href, decode).Some?
              && TargetNumber(r.session) == (var n := ExtractNumber(href, decode).value; if n != "" then n else s.configNumber)
    ensures r.Opened? && AllDigits(s.configNumber) ==> AllDigits(r.session.runtimeNumber)
  {
    if skip || !IsWhatsAppLink(href) then Ignored
    else match ExtractNumber(href, decode)
      case None => Aborted
      case Some(number) => Opened(Open(s, if number != "" then Str(number) else Undefined))
  }

  /** An anchor matching none of the three WhatsApp patterns is never intercepted. */
  lemma OtherLinksIgnored(s: Session, href: string, skip: bool, decode: string -> Option<string>)
    requires !WhatsAppPattern(href)
    ensures HandleLinkClick(s, href, skip, decode) == Ignored
  {
    IsWhatsAppLinkMeaning(href);
  }

  /** A click on `https://wa.me/<digits>…` opens the modal on exactly those digits. */
  lemma ShortLinkOpensOnItsNumber(s: Session, number: string, rest: string, decode: string -> Option<string>)
    requires number != [] && AllDigits(number)
    requires rest == [] || !IsDigit(rest[0])
    ensures HandleLinkClick(s, WaMeBase + number + rest, false, decode) ==
              Opened(Session(s.configNumber, number))
  {
    WaMeUrlNumber(number, rest, decode);
    KeepDigitsOfDigits(number);
  }

  /** A WhatsApp link without a number opens the modal on the configured number. */
  lemma NumberlessLinkOpensOnConfigured(s: Session, href: string, decode: string -> Option<string>)
    requires IsWhatsAppLink(href) && ExtractNumber(href, decode) == Some("")
    ensures HandleLinkClick(s, href, false, decode) == Opened(Session(s.configNumber, s.configNumber))
  {
  }

  // ----- the form's submit -----

  /** What the form knows from the configuration. */
  datatype FormSettings = FormSettings(
    emailRule: FieldRule,
    phoneRule: FieldRule,
    storageKey: Json,
    storageMinutes: Json,
    extraFields: Json,
    invalidEmail: Json,   // `texts.invalidEmail`, the message of a badly shaped e-mail
    invalidPhone: Json)   // `texts.invalidPhone`, the message of a phone with too few digits

  /** What the form reads from the widget's configuration (`this.config`). */
  function SettingsOf(config: Json): FormSettings {
    var fields := Get(config, "contactFields");
    var texts := Get(config, "texts");
    FormSettings(RuleOf(Get(fields, "email")), RuleOf(Get(fields, "phone")),
                 Get(config, "storageKey"), Get(config, "storageExpirationMinutes"), Get(config, "extraFields"),
                 Get(texts, "invalidEmail"), Get(texts, "invalidPhone"))
  }

  /** The settings of a configuration whose contact fields were settled from `cf`. */
  lemma SettingsOfSettled(c: map<string, Json>, cf: map<string, Json>, texts: Json)
    requires "contactFields" in c && c["contactFields"].Obj? && "texts" in c && c["texts"] == texts
    requires "email" in cf && "email" in c["contactFields"].fields
    requires "phone" in cf && "phone" in c["contactFields"].fields
    requires Settleable(cf["email"]) && SettledFrom(cf["email"], c["contactFields"].fields["email"])
    requires Settleable(cf["phone"]) && SettledFrom(cf["phone"], c["contactFields"].fields["phone"])
    ensures var f := SettingsOf(Obj(c));
            && f.emailRule.enabled == FieldEnabled(cf["email"])
            && f.phoneRule.enabled == FieldEnabled(cf["phone"])
            && (!f.emailRule.enabled ==> !f.emailRule.required)
            && (!f.phoneRule.enabled ==> !f.phoneRule.required)
            && f.invalidEmail == Get(texts, "invalidEmail")
            && f.invalidPhone == Get(texts, "invalidPhone")
  {
    var after := c["contactFields"].fields;
    assert Get(Obj(c), "contactFields") == c["contactFields"];
    assert Get(c["contactFields"], "email") == after["email"];
    assert Get(c["contactFields"], "phone") == after["phone"];
    assert Get(Obj(c), "texts") == texts;
    SettledRule(cf["email"], after["email"]);
    SettledRule(cf["phone"], after["phone"]);
  }

  /**
   * On a normalised configuration, each contact field is rendered exactly when its
   * merged value is enabled, a field that is not rendered is never required, and
   * the error messages are the caller's texts over the default ones.
   */
  lemma SettingsOfNormalized(d: Defaults, cfg: Json)
    requires Coherent(d)
    requires Normalize(d, cfg).Ok?
    ensures var f := SettingsOf(Normalize(d, cfg).value);
            var cf := MergedSection(cfg, "contactFields", d.contactFields).fields;
            var texts := MergedSection(cfg, "texts", d.texts);
            && "email" in cf && "phone" in cf
            && f.emailRule.enabled == FieldEnabled(cf["email"])
            && f.phoneRule.enabled == FieldEnabled(cf["phone"])
            && (!f.emailRule.enabled ==> !f.emailRule.required)
            && (!f.phoneRule.enabled ==> !f.phoneRule.required)
            && f.invalidEmail == Get(texts, "invalidEmail")
            && f.invalidPhone == Get(texts, "invalidPhone")
  {
    NormalizeFails(d, cfg);
    NormalizeSettlesFields(d, cfg);
    NormalizeKeepsSections(d, cfg);
    var c := Normalize(d, cfg).value;
    assert c.Obj? by { NormalizeShape(d, cfg); }
    SettingsOfSettled(c.fields, MergedSection(cfg, "contactFields", d.contactFields).fields,
                      MergedSection(cfg, "texts", d.texts));
  }

  /**
   * What the browser contributes: the clock, the formatted instant, the user agent,
   * the page address, its query parameters (the first value of each), the referrer,
   * and the syntax check the browser runs on a `type="email"` input.
   */
  datatype Surroundings = Surroundings(
    now: int,
    timestamp: string,
    userAgent: string,
    pageUrl: string,
    params: map<string, string>,
    referrer: string,
    emailSyntax: string -> bool)

  /** The outcome of a submit: refused with the problems found, or sent on. */
  datatype Submission =
    | Blocked(problems: seq<Problem>)
    | Submitted(storage: LocalStorage, url: string, payload: map<string, Json>)

  /** The record saved for the next visit: the typed values and the consent as a boolean. */
  function SavedLead(name: string, email: string, phone: string, consent: bool): (r: Json)
    ensures Truthy(r)
  {
    Obj(map["nome" := Str(name), "email" := Str(email), "telefone" := Str(phone), "consent" := Bool(consent)])
  }

  /** The value read from an input: trimmed, and empty when the field is not rendered. */
  function InputValue(rule: FieldRule, typed: string): (r: string)
    ensures !rule.enabled ==> r == ""
    ensures rule.enabled ==> IsTrimOf(r, typed)
  {
    if rule.enabled then Trim(typed) else ""
  }

  /** `_handleSubmit` up to the network: check, save, build the address and the payload. */
  function Submit(s: Session, f: FormSettings, ls: LocalStorage, env: Surroundings,
                  typedName: string, typedEmail: string, typedPhone: string, consent: bool,
                  encode: string -> string): (r: Submission)
    ensures r.Blocked? ==> r.problems != []
    ensures r.Submitted? ==> r.url == BuildWhatsAppUrl(s, Trim(typedName), InputValue(f.emailRule, typedEmail),
                                                         InputValue(f.phoneRule, typedPhone), consent, encode)
    ensures r.Submitted? ==>
              r.payload == AssemblePayload(BasePayload(Trim(typedName), InputValue(f.emailRule, typedEmail),
                                                       InputValue(f.phoneRule, typedPhone), consent,
                                                       env.timestamp, env.userAgent, env.pageUrl),
                                           TrackingData(env.params, env.pageUrl, env.referrer), f.extraFields).fields
  {
    var name := Trim(typedName);
    var email := InputValue(f.emailRule, typedEmail);
    var phone := InputValue(f.phoneRule, typedPhone);
    var problems := Problems(name, email, phone, f.emailRule, f.phoneRule, f.invalidEmail, f.invalidPhone,
                             env.emailSyntax);
    if problems != [] then Blocked(problems)
    else
      Submitted(
        WriteStorage(ls, f.storageKey, f.storageMinutes, SavedLead(name, email, phone, consent), env.now),
        BuildWhatsAppUrl(s, name, email, phone, consent, encode),
        AssemblePayload(BasePayload(name, email, phone, consent, env.timestamp, env.userAgent, env.pageUrl),
                        TrackingData(env.params, env.pageUrl, env.referrer), f.extraFields).fields)
  }

  /**
   * A submit goes through exactly when the name is filled in and every rendered
   * contact field is filled when required, and is well formed when filled unless
   * its configured error message is empty (an empty message sets no error); a
   * filled e-mail must also pass the browser's own syntax check.
   */
  lemma SubmitGate(s: Session, f: FormSettings, ls: LocalStorage, env: Surroundings,
                   typedName: string, typedEmail: string, typedPhone: string, consent: bool,
                   encode: string -> string)
    ensures var email := InputValue(f.emailRule, typedEmail);
            var phone := InputValue(f.phoneRule, typedPhone);
            Submit(s, f, ls, env, typedName, typedEmail, typedPhone, consent, encode).Submitted? <==>
              && !AllSpace(typedName)
              && (f.emailRule.enabled ==> && !(f.emailRule.required && email == "")
                                          && !(EmailFlagged(email) && SetsCustomError(f.invalidEmail))
                                          && (email != "" ==> env.emailSyntax(email)))
              && (f.phoneRule.enabled ==> !(f.phoneRule.required && phone == "")
                                          && !(PhoneFlagged(phone) && SetsCustomError(f.invalidPhone)))
  {
  }

  /**
   * A lead that went through is posted, once an endpoint is configured, with the
   * trimmed name, e-mail and phone and the consent text, whatever the user's IP
   * lookup returned, unless `extraFields` overrides those names.
   */
  lemma SubmittedLeadIsPosted(s: Session, f: FormSettings, ls: LocalStorage, env: Surroundings,
                              typedName: string, typedEmail: string, typedPhone: string, consent: bool,
                              encode: string -> string, scriptUrl: Json, ip: Json)
    requires Truthy(scriptUrl)
    requires forall k :: k in OwnEntries(f.extraFields) ==> k != "nome" && k != "email" && k != "telefone" && k != "consent"
    ensures var r := Submit(s, f, ls, env, typedName, typedEmail, typedPhone, consent, encode);
            r.Submitted? ==>
              var post := PostLead(scriptUrl, WithUserIp(r.payload, ip));
              && post.Post?
              && "nome" in post.form && post.form["nome"] == Trim(typedName)
              && "email" in post.form && post.form["email"] == InputValue(f.emailRule, typedEmail)
              && "telefone" in post.form && post.form["telefone"] == InputValue(f.phoneRule, typedPhone)
              && "consent" in post.form && post.form["consent"] == ConsentText(consent)
  {
    PostedLeadCarriesTypedValues(scriptUrl, Trim(typedName), InputValue(f.emailRule, typedEmail),
                                 InputValue(f.phoneRule, typedPhone), consent, env.timestamp, env.userAgent,
                                 env.pageUrl, env.params, env.referrer, f.extraFields, ip);
  }

  /**
   * A lead that went through is read back on the next visit at the same instant,
   * as long as the configured lifetime is not negative.
   */
  lemma SubmittedLeadIsSaved(s: Session, f: FormSettings, ls: LocalStorage, env: Surroundings,
                             typedName: string, typedEmail: string, typedPhone: string, consent: bool,
                             encode: string -> string)
    requires Truthy(f.storageKey) && ls.Available?
    requires f.storageMinutes.Num? ==> f.storageMinutes.n >= 0
    ensures var r := Submit(s, f, ls, env, typedName, typedEmail, typedPhone, consent, encode);
            r.Submitted? ==>
              ReadStorage(r.storage, f.storageKey, env.now) ==
                (Some(SavedLead(Trim(typedName), InputValue(f.emailRule, typedEmail),
                                InputValue(f.phoneRule, typedPhone), consent)), r.storage)
  {
    var data := SavedLead(Trim(typedName), InputValue(f.emailRule, typedEmail), InputValue(f.phoneRule, typedPhone), consent);
    ReadAfterWrite(ls, f.storageKey, f.storageMinutes, data, env.now, env.now);
    assert !Expired(ExpiryFor(f.storageMinutes, env.now), env.now);
  }
}
